=== FILE: README.md ===
# HTTP/1.1 response serializer and Set-Cookie encoder

A Dafny model of the `Responder` of the Yam HTTP library. A responder collects header fields
(`SetField`), an optional body (`SetBody`) and cookies (`SetCookie`, with `CookieOptions`).
`Send(status)` then writes the whole response to an output stream, in this order:

- the status line;
- one `Name: Value` line per field;
- an automatic `Content-Length` when there is a body (its place among the fields is a choice of this
  model, see "Left out");
- one `Set-Cookie` line per cookie, after all the caller's fields (this order is also a choice of
  this model, see "Left out");
- the empty line;
- the body.

`Responder.h` and its implementation are not part of this model. The behaviour modelled is the
byte-exact behaviour that `test/ResponderTest.cc` pins down, completed with the standards that
behaviour follows:

- the status line of section 3.1.2 of RFC 7230, with the reason phrases of section 6.1 of RFC 7231;
- the header fields of section 3.2 of RFC 7230;
- Content-Length as in section 3.3.2 of RFC 7230;
- `Set-Cookie` as in section 4.1.1 of RFC 6265, with the attributes of sections 4.1.2.2–4.1.2.6;
- the IMF-fixdate of section 7.1.1.1 of RFC 7231 for `Expires`.

Modules, one per file:

- `Wrappers` (`wrappers.dfy`): `Option`.
- `Decimal` (`decimal.dfy`): decimal digits of naturals and integers, zero padding, and parsing back.
- `Text` (`text.dfy`): joining and splitting on a separator, and CRLF-terminated lines.
- `Status` (`status.dfy`): the status codes, reason phrases and status line.
- `CivilTime` (`civil_time.dfy`): seconds since the Unix epoch to the proleptic Gregorian calendar in UTC, and back.
- `HttpDate` (`http_date.dfy`): the IMF-fixdate format and its parser.
- `Cookie` (`cookie.dfy`): cookie options, the `Set-Cookie` value, and its parser.
- `Responder` (`responder.dfy`): the responder, `Serialize`/`Send`, and a response parser.
- `ExampleTexts` (`example_texts.dfy`): the lines and attributes of the expected outputs, as
  concatenations of their short pieces.
- `CookieExamples` (`cookie_examples.dfy`) and `ResponderExamples` (`responder_examples.dfy`): each
  test case of `test/ResponderTest.cc` as a lemma.

The output stream is a `seq<char>`. `Send` takes what the stream holds and returns it with the
response appended. This is what the `StringOutputStream` sink of the test does: every write is
accepted in full and appended.

Every encoder has a parser partner. Each pair comes with an all-inputs round-trip lemma, in both
directions where the format allows it:

- status line;
- header field lines and the whole response;
- decimal numbers;
- HTTP dates;
- `Set-Cookie` values.

The status-line parser (`Status.ParseStatusText`), the attribute parser (`Cookie.ParseAttribute`)
and the cookie parser (`Cookie.ParseSetCookie`) are strict by re-rendering: they end by encoding
their result again and comparing it with the input. Their "accepted text is exactly the encoding"
direction (`Status.ParseStatusText`, `Cookie.ParseAttribute`, `Cookie.EncodeParse`) therefore holds
by construction. The substantive direction for them is that every encoding is accepted
(`Status.ParseStatusTextOf`, `Cookie.ParseAttributeText`, `Cookie.ParseEncode`). The date parser
`HttpDate.Parse` reads its input independently, so `HttpDate.FormatParse` is a result in its own
right; so is the contract of `Responder.ParseResponse`, which splits lines and fields itself and
uses the strict status parser only for the status line.

The example lemmas state the expected output of each test case. The test's string literal is
written there as a concatenation of its pieces, split at the field, attribute and line boundaries.
For instance, `"HTTP/1.1 200 OK\r\n" + ("Set-Cookie: " + ("First=One" + ("; HttpOnly" + "; Secure") + ("\r\n" + "\r\n")))`
stands for the literal at test/ResponderTest.cc:159-161. The characters are the same.

## Model

| member | source | states |
|---|---|---|
| Responder.Send | test/ResponderTest.cc:17-30 | the sink ends up holding what it held before followed by the whole serialized response; the output is the concatenation of the writes, each written in full |
| Responder.WriteFieldLines | test/ResponderTest.cc:66-69 | writes each field as its `Name: Value` line followed by CRLF, in list order, after the existing output |
| Responder.ParseSerialize | test/ResponderTest.cc:58-72 | the serialized response parses back to its status, its wire fields in order, and the stored body; field values, including `!`, `$` and `;`, are carried verbatim |
| Responder.ParseRender | test/ResponderTest.cc:66-69 | any message whose field names contain no ':' and whose fields contain no CR renders to text that parses back to the same message |
| Responder.ParseResponse | test/ResponderTest.cc:66-69 | any text the response parser accepts is exactly the rendering of the message it returns |
| Responder.ParseFieldLinesOf | test/ResponderTest.cc:67-68 | a list of readable fields, rendered as lines, parses back to the same list |
| Responder.ParseFieldLineOf | test/ResponderTest.cc:67 | one readable field, rendered as `Name: Value`, parses back to the same field |
| Responder.ContentLengthOfBody | test/ResponderTest.cc:74-87 | with a body, the wire fields carry `Content-Length` equal to the body length in decimal, and that value parses back to the length |
| Responder.NoBodyNoLength | test/ResponderTest.cc:58-72 | without a body, the wire fields are exactly the caller's fields, unchanged and in order, followed by the cookie fields (that order is a choice of the model): no Content-Length or other field is added |
| Responder.BodyVerbatim | test/ResponderTest.cc:81-84 | the response ends with the body exactly as stored; everything before it is the header block with an empty body |
| Responder.SetFieldsInOrder | test/ResponderTest.cc:62-68 | fields with distinct names set on a fresh responder go out in call order with their values unchanged |
| Responder.UpsertLookup | test/ResponderTest.cc:62-63 | after SetField the field reads the new value, and every other name reads as before |
| Responder.UpsertDistinct | test/ResponderTest.cc:62-63 | SetField keeps field names distinct |
| Responder.Upsert | test/ResponderTest.cc:62-63 | a new name is appended at the end; an existing name keeps the list of names as it was |
| Responder.UpsertFrom | test/ResponderTest.cc:62-63 | every field after an upsert is an old field or the new one |
| Responder.LookupAppend | test/ResponderTest.cc:62-63 | a name already in the first list is looked up there, whatever follows |
| Responder.SetCookieAppends | test/ResponderTest.cc:93-99 | each SetCookie adds exactly one `Set-Cookie` field at the end of the wire fields, after the caller's fields (a choice of the model); cookies are never merged |
| Responder.CookieFieldsIndex | test/ResponderTest.cc:98-99 | the i-th `Set-Cookie` field is the field of the i-th cookie |
| Responder.CookieFieldsSnoc | test/ResponderTest.cc:93-99 | a cookie set later adds its field after those of the earlier cookies |
| Responder.WireFieldsReadable | test/ResponderTest.cc:119-121 | when the caller's fields and the cookies are readable, so is every field Send writes, including Content-Length and the `Set-Cookie` fields |
| Responder.CookieFieldsReadable | test/ResponderTest.cc:98-99 | cookies whose names, values, domains and paths contain no CR give `Set-Cookie` fields that read back |
| Responder.FieldsWithLengthReadable | test/ResponderTest.cc:82 | adding Content-Length keeps the caller's readable fields readable |
| Status.ParseStatusTextOf | test/ResponderTest.cc:55 | the status line text, without its CRLF, parses back to the same status |
| Status.ParseStatusText | test/ResponderTest.cc:55 | any accepted status text is exactly the text of the status it returns |
| Status.StatusText | test/ResponderTest.cc:55 | the status text contains no CR or LF, so it stays on one line, and is exactly 13 characters longer than the reason phrase: `HTTP/1.1`, a space, three digits and a space |
| Status.ReasonIsPhrase | test/ResponderTest.cc:55 | every reason phrase is non-empty and made of letters, spaces and '-' only |
| Status.FromCodeOfCode | test/ResponderTest.cc:81 | the code of a status maps back to that status |
| Status.CodeOfFromCode | test/ResponderTest.cc:81 | a code that maps to a status is that status's code |
| Status.CodeInjective | test/ResponderTest.cc:97 | different statuses have different codes |
| Cookie.ParseEncode | test/ResponderTest.cc:119-121 | an encodable cookie's `Set-Cookie` value parses back to its name, value and options |
| Cookie.EncodeParse | test/ResponderTest.cc:141-143 | any value the cookie parser accepts is exactly the encoding of what it returns |
| Cookie.AttributesInOrder | test/ResponderTest.cc:111-120 | attributes come out as Domain, then Path, then the lifetime (Max-Age or Expires), then HttpOnly, then Secure |
| Cookie.AttributesPresent | test/ResponderTest.cc:152-160 | an attribute is written exactly when its option is set: Domain, Path, Max-Age, Expires, HttpOnly and Secure each if and only if |
| Cookie.OptionsOfAttributes | test/ResponderTest.cc:111-116 | applying the written attributes in order to the defaults rebuilds the options, so no option is lost |
| Cookie.SetDomain | test/ResponderTest.cc:112 | SetDomain sets the domain and leaves every other option unchanged |
| Cookie.SetPath | test/ResponderTest.cc:113 | SetPath sets the path and leaves every other option unchanged |
| Cookie.SetMaxAge | test/ResponderTest.cc:114 | SetMaxAge makes the lifetime that many seconds and leaves every other option unchanged |
| Cookie.SetExpiration | test/ResponderTest.cc:136 | SetExpiration makes the lifetime that instant and leaves every other option unchanged |
| Cookie.SetHttpOnly | test/ResponderTest.cc:153 | SetHttpOnly sets the flag and leaves every other option unchanged |
| Cookie.SetSecure | test/ResponderTest.cc:154 | SetSecure sets the flag and leaves every other option unchanged |
| Cookie.Minutes | test/ResponderTest.cc:114 | a number of minutes is a whole multiple of 60 seconds, and dividing it by 60 gives the minutes back |
| Cookie.ParseAttributeText | test/ResponderTest.cc:120 | every readable attribute's text parses back to the same attribute |
| Cookie.ParseAttribute | test/ResponderTest.cc:120 | an accepted attribute text is exactly the text of the attribute returned |
| Cookie.ParseMaxAge | test/ResponderTest.cc:120 | `Max-Age=` followed by any integer in decimal parses to that Max-Age |
| Cookie.ParseExpires | test/ResponderTest.cc:142 | `Expires=` followed by the date of any instant in years 0–9999 parses to that instant |
| Cookie.ParseAttributesOf | test/ResponderTest.cc:120 | readable attributes, written as `; ` pieces, parse back to the same list |
| Cookie.ParsePairOf | test/ResponderTest.cc:98 | `name=value` with no '=' in the name splits back into the name and the value |
| Cookie.PiecesHaveNoSemicolon | test/ResponderTest.cc:120 | no piece of an encodable cookie contains ';', so splitting on ';' recovers the pieces |
| Cookie.EncodeAvoids | test/ResponderTest.cc:120 | a character outside the date alphabet, other than '=' and ';', appears in the encoding only if it appears in the name, value, domain or path |
| Cookie.AttributeTextHasNoSemicolon | test/ResponderTest.cc:120 | a readable attribute's text contains no ';' |
| HttpDate.ParseFormat | test/ResponderTest.cc:126-146 | the date written for any instant in years 0–9999 parses back to the same instant |
| HttpDate.FormatParse | test/ResponderTest.cc:142 | any text the date parser accepts is exactly the date written for the instant it returns |
| HttpDate.ParseFormatUtc | test/ResponderTest.cc:142 | a valid calendar time in years 0–9999, formatted, parses to its epoch second |
| HttpDate.FormatIsDateText | test/ResponderTest.cc:142 | a formatted date uses only letters, digits, space, ',', ':' and '-' |
| HttpDate.FormatAvoids | test/ResponderTest.cc:142 | no character outside that alphabet, CR and ';' among them, appears in a formatted date |
| HttpDate.YearText | test/ResponderTest.cc:142 | years 0–9999 are written as exactly four digits denoting the year |
| HttpDate.IndexOfDistinct | test/ResponderTest.cc:142 | in a list of distinct names, each name is found at its own position |
| CivilTime.FromEpochValid | test/ResponderTest.cc:130-133 | every epoch second gives a valid calendar time, and that time converts back to the same second |
| CivilTime.FromEpochToEpoch | test/ResponderTest.cc:130-133 | a valid calendar time, converted to seconds and back, is the same time, weekday included |
| CivilTime.DaysBeforeYearIsCounting | test/ResponderTest.cc:130-133 | the closed leap-year formula for the days before a year equals counting year by year from 1970 |
| CivilTime.DateOfDayValid | test/ResponderTest.cc:130-133 | every day number gives a valid date whose day number is the same |
| CivilTime.DateOfDayNumber | test/ResponderTest.cc:130-133 | a valid date's day number converts back to that date |
| CivilTime.ClockOfValid | test/ResponderTest.cc:130-133 | a second of the day splits into hours below 24, minutes and seconds below 60, which recombine to it |
| CivilTime.WeekdayAdvances | test/ResponderTest.cc:142 | the weekday advances by one, modulo 7, from each day to the next |
| CivilTime.YearOfDayUnique | test/ResponderTest.cc:130-133 | a day falls in exactly one year |
| CivilTime.MonthFromUnique | test/ResponderTest.cc:130-133 | a day of the year falls in exactly one month |
| Decimal.ParseFromNat | test/ResponderTest.cc:82 | a natural number's decimal text parses back to the number |
| Decimal.ToNatFromNat | test/ResponderTest.cc:82 | the value of a natural number's decimal text is the number |
| Decimal.FromNatToNat | test/ResponderTest.cc:82 | a canonical digit string is the decimal text of its value |
| Decimal.ParseFromInt | test/ResponderTest.cc:120 | an integer's decimal text, with '-' when negative, parses back to the integer |
| Decimal.FixedOfDigits | test/ResponderTest.cc:142 | a digit string of width w is the zero-padded text of its value at width w |
| Decimal.Fixed | test/ResponderTest.cc:142 | zero padding gives only digits, at least the width, exactly the width when the value fits, and the value is kept |
| Decimal.DigitCount | test/ResponderTest.cc:55 | a number between 10^(k-1) and 10^k has exactly k digits |
| Text.SplitJoin | test/ResponderTest.cc:120 | pieces without the separator, joined and split again, give the same pieces |
| Text.JoinSplit | test/ResponderTest.cc:120 | any text, split and joined again, is the same text |
| Text.ReadBlockOf | test/ResponderTest.cc:66-69 | CRLF-terminated lines followed by an empty line read back as the same lines and the rest |
| Text.ReadLineOf | test/ResponderTest.cc:66 | a line without CR, followed by CRLF, reads back as that line and the rest |
| ResponderExamples.JustStatus | test/ResponderTest.cc:49-56 | a fresh responder sent with Continue writes exactly the status line and the empty line |
| ResponderExamples.SomeHeaders | test/ResponderTest.cc:58-72 | two fields set in order go out as the test's expected text, values verbatim |
| ResponderExamples.HeadersAndBody | test/ResponderTest.cc:74-87 | a 12-character body with Bad Gateway gives `Content-Length: 12`, the empty line and the body |
| ResponderExamples.SimpleCookies | test/ResponderTest.cc:89-103 | two cookies give two `Set-Cookie` lines in call order |
| ResponderExamples.TwoCookies | test/ResponderTest.cc:93-94 | for any names and values, two SetCookie calls give two separate plain `name=value` fields in order |
| ResponderExamples.CookieWithSimpleOptions | test/ResponderTest.cc:105-124 | domain, path and ten minutes give `; Domain=example.com; Path=/some/path; Max-Age=600` |
| ResponderExamples.CookieWithExpirationDate | test/ResponderTest.cc:126-146 | an expiration at epoch second 1358286458 gives `; Expires=Tue, 15 Jan 2013 21:47:38 GMT` |
| ResponderExamples.CookieWithHttpOnlyAndSecure | test/ResponderTest.cc:148-164 | the two flags give the bare tokens `; HttpOnly; Secure` and nothing else |
| ResponderExamples.OneCookie | test/ResponderTest.cc:116-121 | a fresh responder with one cookie writes the status line, one `Set-Cookie` line with the encoding, and the empty line |
| ResponderExamples.EncodePlain | test/ResponderTest.cc:98 | with default options the cookie value is `name=value` and nothing else |
| CookieExamples.ExampleInstant | test/ResponderTest.cc:131-133 | epoch second 1358286458 is Tuesday 2013-01-15 21:47:38 UTC |
| CookieExamples.ExampleDate | test/ResponderTest.cc:142 | epoch second 1358286458 is written as `Tue, 15 Jan 2013 21:47:38 GMT` |
| CookieExamples.SimpleOptionsEncode | test/ResponderTest.cc:111-120 | the cookie of the simple-options case encodes as `First=One; Domain=example.com; Path=/some/path; Max-Age=600` |
| CookieExamples.ExpirationEncodeOf | test/ResponderTest.cc:135-142 | for any instant, an expiration-only cookie encodes as `name=value; Expires=` and the formatted date |
| CookieExamples.FlagsEncode | test/ResponderTest.cc:152-160 | the flags-only cookie encodes as `First=One; HttpOnly; Secure` |

## Left out

- `src/TcpServer.cc`, `include/TcpServer.h`, `include/PolledTcpServer.h` and `include/Timeout.h`
  are left out. They hold the listening socket, the accept thread, the stop guard and a fixed-message
  exception: operating-system I/O and concurrency, with no serialization logic. The header and the
  implementation of the server also disagree on the constructor, `Start` and `OnAccepted`.
- The `strptime`/`timegm` calls of the test (test/ResponderTest.cc:130-133) are foreign libc
  calls. Time is an integer count of seconds since the epoch. `CivilTime` gives the conversion both
  ways, and `CookieExamples.ExampleInstant` states which instant the test means.
- Sink write failures are left out: the sink of the test accepts every write in full. A short or
  failed write has no behaviour in the source to follow.
- Reuse of a responder after `Send` is left out. A second `Send`, or a `SetField`, `SetBody` or
  `SetCookie` after `Send`, never happens in the source. The model has no "already sent" state:
  `Send` is a function of the responder's state, so a second call writes the same response again,
  and the setters still apply to the value afterwards.
- Responder.SetBody: the body is copied as a value when it is set. The source hands over a shared
  pointer to a character vector (test/ResponderTest.cc:44-46, 78). Changes made to that vector by
  another owner between `SetBody` and `Send` are not modelled, and neither is a null pointer.
- `Responder.h` is not part of this model. Its status enumeration is taken as the 41 codes of
  section 6.1 of RFC 7231; the test uses four of them (100, 200, 404, 502).
- Responder.SetField: a repeated name overwrites the earlier value in the earlier field's place. This
  is a modelling choice; the source never sets a name twice.
- Responder.FieldsWithLength: Content-Length is added at `Send` time after the caller's fields (or in
  place of a caller's own Content-Length field) and before the `Set-Cookie` fields. This is a modelling
  choice; the source only shows a body with no other field.
- Responder.WireFields: all the caller's fields go before all the `Set-Cookie` fields, whatever the
  order of the `SetField` and `SetCookie` calls. This is a modelling choice; the source never sets a
  field and a cookie on the same responder (test/ResponderTest.cc:58-72 has only fields, :89-164 only
  cookies).
- Cookie.SetMaxAge: Max-Age and Expires share one lifetime option, and the later setter wins. This is
  a modelling choice; the source never sets both.
- Cookie.ParseEncode: the round trip is stated for expiration instants in years 0–9999 only. Outside
  that range the year of an IMF-fixdate is not four digits. `HttpDate.Format` still writes such
  years, with their digits and a leading '-' when negative, but the parser accepts only four digits.
- Cookie.Encode: names, values, domains and paths are written as given, with no quoting or
  validation. The cookie round trip requires them to be free of ';', and names also of '='. The response round trip also requires them to be free of CR.
- Characters are Dafny `char`s, not bytes. The test's texts are ASCII, so `Content-Length`, which
  counts the body's characters, agrees with its byte count there.
- Cookie.Minutes: seconds and instants are unbounded integers. The source holds Max-Age in
  `std::chrono` durations and the expiration in a 64-bit `time_t`; 64-bit overflow of a duration
  (for instance `m * 60` for a huge `m`) and the range failures of `gmtime` for instants whose year
  it cannot represent are not modelled. The same holds for `Cookie.SetMaxAge`,
  `Cookie.SetExpiration`, `CivilTime.FromEpoch` and `HttpDate.Format`.

=== FILE: civil_time.dfy ===
/**
  Broken-down UTC time in the proleptic Gregorian calendar: the conversion
  from seconds since 1970-01-01T00:00:00Z to year, month, day, time of day
  and day of the week that an HTTP-date needs, and its inverse.

  Division is floor division, so instants before the epoch are handled as
  `gmtime` handles them: second -1 is 1969-12-31 23:59:59.
 */
module CivilTime {

  const SecondsPerDay: int := 86400

  /** Day of the week of 1970-01-01, counting Sunday as 0: a Thursday. */
  const EpochWeekday: nat := 4

  predicate IsLeapYear(y: int) {
    y % 4 == 0 && (y % 100 != 0 || y % 400 == 0)
  }

  function DaysInYear(y: int): int {
    if IsLeapYear(y) then 366 else 365
  }

  function DaysInMonth(y: int, m: int): int
    requires 1 <= m <= 12
  {
    if m == 2 then (if IsLeapYear(y) then 29 else 28)
    else if m == 4 || m == 6 || m == 9 || m == 11 then 30
    else 31
  }

  /** Number of leap years in 1..n (negative counts for n < 0), by floor division. */
  function LeapsThrough(n: int): int {
    n / 4 - n / 100 + n / 400
  }

  /** Days from 1970-01-01 to January 1st of year `y`, in closed form. */
  function DaysBeforeYear(y: int): int {
    365 * (y - 1970) + LeapsThrough(y - 1) - LeapsThrough(1969)
  }

  /**
    The same count obtained by walking year by year from 1970: an
    independent definition against which the closed form is proved.
   */
  function DaysBeforeYearByCounting(y: int): int
    decreases if y < 1970 then 1970 - y else y - 1970
  {
    if y == 1970 then 0
    else if y > 1970 then DaysBeforeYearByCounting(y - 1) + DaysInYear(y - 1)
    else DaysBeforeYearByCounting(y + 1) - DaysInYear(y)
  }

  /** Floor division by a positive `k` steps up exactly at the multiples of `k`. */
  lemma DivStep(n: int, k: int)
    requires k == 4 || k == 100 || k == 400
    ensures n / k - (n - 1) / k == if n % k == 0 then 1 else 0
  {
    if k == 4 {
      DivStepBy(n, 4);
    } else if k == 100 {
      DivStepBy(n, 100);
    } else {
      DivStepBy(n, 400);
    }
  }

  lemma DivStepBy(n: int, k: int)
    requires k > 0
    ensures n / k - (n - 1) / k == if n % k == 0 then 1 else 0
  {
    var q := (n - 1) / k;
    var r := (n - 1) % k;
    assert n - 1 == q * k + r && 0 <= r < k;
    if r == k - 1 {
      DivUnique(n, k, q + 1, 0);
    } else {
      DivUnique(n, k, q, r + 1);
    }
  }

  /** Floor division is determined by its quotient-remainder equation. */
  lemma DivUnique(n: int, k: int, q: int, r: int)
    requires k > 0 && 0 <= r < k && n == q * k + r
    ensures n / k == q && n % k == r
  {
    var q', r' := n / k, n % k;
    assert n == q' * k + r' && 0 <= r' < k;
    if q' > q {
      assert q' * k == (q' - q) * k + q * k;
      MulAtLeast(q' - q, k);
    } else if q' < q {
      assert q * k == (q - q') * k + q' * k;
      MulAtLeast(q - q', k);
    }
  }

  lemma {:induction false} MulAtLeast(a: int, k: int)
    requires a >= 1 && k > 0
    ensures a * k >= k
    decreases a
  {
    if a > 1 {
      MulAtLeast(a - 1, k);
      assert a * k == (a - 1) * k + k;
    }
  }

  /** Moving the closed form on by one year adds exactly that year's length. */
  lemma DaysBeforeNextYear(y: int)
    ensures DaysBeforeYear(y + 1) == DaysBeforeYear(y) + DaysInYear(y)
  {
    DivStep(y, 4);
    DivStep(y, 100);
    DivStep(y, 400);
    var step := LeapsThrough(y) - LeapsThrough(y - 1);
    assert DaysBeforeYear(y + 1) == DaysBeforeYear(y) + 365 + step;
    if y % 100 == 0 {
      var q := y / 100;
      assert y == q * 100;
      DivUnique(y, 4, 25 * q, 0);
    }
    if y % 400 == 0 {
      var q := y / 400;
      assert y == q * 400;
      DivUnique(y, 100, 4 * q, 0);
    }
  }

  /** The closed form agrees with counting year by year, for every year. */
  lemma {:induction false} DaysBeforeYearIsCounting(y: int)
    ensures DaysBeforeYear(y) == DaysBeforeYearByCounting(y)
    decreases if y < 1970 then 1970 - y else y - 1970
  {
    if y > 1970 {
      DaysBeforeYearIsCounting(y - 1);
      DaysBeforeNextYear(y - 1);
    } else if y < 1970 {
      DaysBeforeYearIsCounting(y + 1);
      DaysBeforeNextYear(y);
    }
  }

  /** January 1st of a later year is strictly later. */
  lemma {:induction false} DaysBeforeYearStrictlyIncreasing(a: int, b: int)
    requires a < b
    ensures DaysBeforeYear(a) < DaysBeforeYear(b)
    decreases b - a
  {
    DaysBeforeNextYear(a);
    if a + 1 < b {
      DaysBeforeYearStrictlyIncreasing(a + 1, b);
    }
  }

  /** Days from January 1st to the first day of month `m` (13 meaning the next year). */
  function DaysBeforeMonth(y: int, m: int): int
    requires 1 <= m <= 13
  {
    var common := [0, 31, 59, 90, 120, 151, 181, 212, 243, 273, 304, 334, 365][m - 1];
    if m > 2 && IsLeapYear(y) then common + 1 else common
  }

  /** The month table is the running sum of the month lengths. */
  lemma DaysBeforeNextMonth(y: int, m: int)
    requires 1 <= m <= 12
    ensures DaysBeforeMonth(y, m + 1) == DaysBeforeMonth(y, m) + DaysInMonth(y, m)
    ensures DaysBeforeMonth(y, 1) == 0 && DaysBeforeMonth(y, 13) == DaysInYear(y)
  {
  }

  lemma {:induction false} DaysBeforeMonthStrictlyIncreasing(y: int, a: int, b: int)
    requires 1 <= a < b <= 13
    ensures DaysBeforeMonth(y, a) < DaysBeforeMonth(y, b)
    decreases b - a
  {
    DaysBeforeNextMonth(y, a);
    if a + 1 < b {
      DaysBeforeMonthStrictlyIncreasing(y, a + 1, b);
    }
  }

  /** The year holding day `days`, searching upwards from year `y`. */
  function YearUpFrom(days: int, y: int): (r: int)
    requires DaysBeforeYear(y) <= days
    ensures y <= r
    ensures DaysBeforeYear(r) <= days < DaysBeforeYear(r + 1)
    decreases days - DaysBeforeYear(y)
  {
    DaysBeforeNextYear(y);
    if days < DaysBeforeYear(y + 1) then y else YearUpFrom(days, y + 1)
  }

  /** The year holding day `days`, searching downwards from year `y`. */
  function YearDownFrom(days: int, y: int): (r: int)
    requires days < DaysBeforeYear(y + 1)
    ensures r <= y
    ensures DaysBeforeYear(r) <= days < DaysBeforeYear(r + 1)
    decreases DaysBeforeYear(y + 1) - days
  {
    DaysBeforeNextYear(y);
    if DaysBeforeYear(y) <= days then y else YearDownFrom(days, y - 1)
  }

  /** The year that day number `days` (0 = 1970-01-01) falls in. */
  function YearOfDay(days: int): (r: int)
    ensures DaysBeforeYear(r) <= days < DaysBeforeYear(r + 1)
  {
    if days >= 0 then YearUpFrom(days, 1970) else YearDownFrom(days, 1969)
  }

  /** Only one year can hold a given day. */
  lemma YearOfDayUnique(days: int, y: int)
    requires DaysBeforeYear(y) <= days < DaysBeforeYear(y + 1)
    ensures YearOfDay(days) == y
  {
    var r := YearOfDay(days);
    if r < y {
      if r + 1 < y {
        DaysBeforeYearStrictlyIncreasing(r + 1, y);
      }
    } else if r > y {
      if y + 1 < r {
        DaysBeforeYearStrictlyIncreasing(y + 1, r);
      }
    }
  }

  /** The month holding day-of-year `doy`, searching upwards from month `m`. */
  function MonthFrom(y: int, doy: int, m: int): (r: int)
    requires 1 <= m <= 12
    requires DaysBeforeMonth(y, m) <= doy < DaysInYear(y)
    ensures m <= r <= 12
    ensures DaysBeforeMonth(y, r) <= doy < DaysBeforeMonth(y, r + 1)
    decreases 12 - m
  {
    DaysBeforeNextMonth(y, m);
    if m == 12 || doy < DaysBeforeMonth(y, m + 1) then m else MonthFrom(y, doy, m + 1)
  }

  lemma MonthFromUnique(y: int, doy: int, m: int)
    requires 1 <= m <= 12
    requires DaysBeforeMonth(y, m) <= doy < DaysBeforeMonth(y, m + 1)
    ensures 0 <= doy < DaysInYear(y)
    ensures MonthFrom(y, doy, 1) == m
  {
    DaysBeforeNextMonth(y, 12);
    DaysBeforeNextMonth(y, 1);
    if 1 < m {
      DaysBeforeMonthStrictlyIncreasing(y, 1, m);
    }
    if m + 1 < 13 {
      DaysBeforeMonthStrictlyIncreasing(y, m + 1, 13);
    }
    var r := MonthFrom(y, doy, 1);
    if r < m {
      if r + 1 < m {
        DaysBeforeMonthStrictlyIncreasing(y, r + 1, m);
      }
    } else if r > m {
      if m + 1 < r {
        DaysBeforeMonthStrictlyIncreasing(y, m + 1, r);
      }
    }
  }

  /** A calendar date and a time of day, with the day of the week (Sunday = 0). */
  datatype UtcTime = UtcTime(
    year: int, month: int, day: int,
    hour: int, minute: int, second: int,
    weekday: int)

  /** Day number of a date: days since 1970-01-01. */
  function DayNumber(year: int, month: int, day: int): int
    requires 1 <= month <= 12
  {
    DaysBeforeYear(year) + DaysBeforeMonth(year, month) + day - 1
  }

  /** Day of the week of day number `days`, Sunday = 0. */
  function WeekdayOfDay(days: int): (w: int)
    ensures 0 <= w < 7
    ensures w == EpochWeekday <==> days % 7 == 0
  {
    (days + EpochWeekday) % 7
  }

  /** Consecutive days have consecutive weekdays, wrapping after Saturday. */
  lemma WeekdayAdvances(days: int)
    ensures WeekdayOfDay(days + 1) == (WeekdayOfDay(days) + 1) % 7
  {
  }

  /** A well-formed broken-down time: a real date, a real time of day, the right weekday. */
  predicate Valid(u: UtcTime) {
    && 1 <= u.month <= 12
    && 1 <= u.day <= DaysInMonth(u.year, u.month)
    && 0 <= u.hour < 24 && 0 <= u.minute < 60 && 0 <= u.second < 60
    && u.weekday == WeekdayOfDay(DayNumber(u.year, u.month, u.day))
  }

  /** The instant `u` denotes, in seconds since the epoch. */
  function ToEpoch(u: UtcTime): int
    requires 1 <= u.month <= 12
  {
    DayNumber(u.year, u.month, u.day) * SecondsPerDay + u.hour * 3600 + u.minute * 60 + u.second
  }

  /** The calendar date of day number `days`: year, month and day of the month. */
  function DateOfDay(days: int): (int, int, int) {
    var y := YearOfDay(days);
    var doy := days - DaysBeforeYear(y);
    DaysBeforeNextYear(y);
    DaysBeforeNextMonth(y, 1);
    var m := MonthFrom(y, doy, 1);
    (y, m, doy - DaysBeforeMonth(y, m) + 1)
  }

  /** A second of the day split into hours, minutes and seconds. */
  function ClockOf(secs: int): (int, int, int) {
    (secs / 3600, secs % 3600 / 60, secs % 60)
  }

  /** Breaks an epoch second down into UTC calendar fields, as `gmtime` does. */
  function FromEpoch(t: int): UtcTime {
    var (y, m, d) := DateOfDay(t / SecondsPerDay);
    var (hh, mm, ss) := ClockOf(t % SecondsPerDay);
    UtcTime(y, m, d, hh, mm, ss, WeekdayOfDay(t / SecondsPerDay))
  }

  /** The date of a day number is a real date, and it has that day number. */
  lemma DateOfDayValid(days: int)
    ensures var (y, m, d) := DateOfDay(days);
      1 <= m <= 12 && 1 <= d <= DaysInMonth(y, m) && DayNumber(y, m, d) == days
  {
    var y := YearOfDay(days);
    var doy := days - DaysBeforeYear(y);
    DaysBeforeNextYear(y);
    DaysBeforeNextMonth(y, 1);
    var m := MonthFrom(y, doy, 1);
    DaysBeforeNextMonth(y, m);
  }

  /** A real date is the date of its own day number. */
  lemma DateOfDayNumber(y: int, m: int, d: int)
    requires 1 <= m <= 12 && 1 <= d <= DaysInMonth(y, m)
    ensures DateOfDay(DayNumber(y, m, d)) == (y, m, d)
  {
    var days := DayNumber(y, m, d);
    var doy := DaysBeforeMonth(y, m) + d - 1;
    DaysBeforeNextMonth(y, m);
    MonthFromUnique(y, doy, m);
    DaysBeforeNextYear(y);
    YearOfDayUnique(days, y);
    DateOfDayFrom(days, y, doy, m);
  }

  /** DateOfDay read off from its year and month. */
  lemma DateOfDayFrom(days: int, y: int, doy: int, m: int)
    requires YearOfDay(days) == y && doy == days - DaysBeforeYear(y)
    requires 0 <= doy < DaysInYear(y) && MonthFrom(y, doy, 1) == m
    ensures DateOfDay(days) == (y, m, doy - DaysBeforeMonth(y, m) + 1)
  {
  }

  lemma ClockOfValid(secs: int)
    requires 0 <= secs < SecondsPerDay
    ensures var (hh, mm, ss) := ClockOf(secs);
      0 <= hh < 24 && 0 <= mm < 60 && 0 <= ss < 60 && hh * 3600 + mm * 60 + ss == secs
  {
  }

  lemma ClockOfSeconds(hh: int, mm: int, ss: int)
    requires 0 <= hh < 24 && 0 <= mm < 60 && 0 <= ss < 60
    ensures ClockOf(hh * 3600 + mm * 60 + ss) == (hh, mm, ss)
  {
    var secs := hh * 3600 + mm * 60 + ss;
    DivUnique(secs, 3600, hh, mm * 60 + ss);
    DivUnique(mm * 60 + ss, 60, mm, ss);
    DivUnique(secs, 60, hh * 60 + mm, ss);
  }

  /** An epoch second is a whole number of days plus a second of the day, uniquely. */
  lemma DaySplit(t: int, days: int, secs: int)
    requires 0 <= secs < SecondsPerDay && t == days * SecondsPerDay + secs
    ensures t / SecondsPerDay == days && t % SecondsPerDay == secs
  {
    DivUnique(t, SecondsPerDay, days, secs);
  }

  /** The breakdown is a well-formed time, and it denotes the instant it came from. */
  lemma FromEpochValid(t: int)
    ensures Valid(FromEpoch(t))
    ensures ToEpoch(FromEpoch(t)) == t
  {
    var days, secs := t / SecondsPerDay, t % SecondsPerDay;
    DateOfDayValid(days);
    ClockOfValid(secs);
    var u := FromEpoch(t);
    assert DayNumber(u.year, u.month, u.day) == days;
    assert ToEpoch(u) == days * SecondsPerDay + secs;
  }

  /** The other round trip: a well-formed broken-down time survives conversion to an epoch second and back. */
  lemma FromEpochToEpoch(u: UtcTime)
    requires Valid(u)
    ensures FromEpoch(ToEpoch(u)) == u
  {
    var days := DayNumber(u.year, u.month, u.day);
    var secs := u.hour * 3600 + u.minute * 60 + u.second;
    DaySplit(ToEpoch(u), days, secs);
    DateOfDayNumber(u.year, u.month, u.day);
    ClockOfSeconds(u.hour, u.minute, u.second);
  }
}

=== FILE: cookie.dfy ===
/**
  Cookie options and the `Set-Cookie` field value the responder writes for
  each cookie (section 4.1.1 of RFC 6265): `name=value`, then the
  attributes that are set, in the fixed order Domain, Path, Max-Age or
  Expires, HttpOnly, Secure, each introduced by "; ".
 */
module Cookie {
  import opened Wrappers
  import opened Text
  import Decimal
  import CivilTime
  import HttpDate

  /**
    How long the cookie lives: for the session, for a number of seconds
    (Max-Age), or until an instant given in seconds since the epoch (Expires).
   */
  datatype Lifetime = Session | MaxAgeSeconds(seconds: int) | ExpiresAt(time: int)

  /** The attribute set of one cookie; everything is absent or false by default. */
  datatype CookieOptions = CookieOptions(
    domain: Option<seq<char>>,
    path: Option<seq<char>>,
    lifetime: Lifetime,
    httpOnly: bool,
    secure: bool)

  const Defaults: CookieOptions := CookieOptions(None, None, Session, false, false)

  function SetDomain(o: CookieOptions, domain: seq<char>): (r: CookieOptions)
    ensures r.domain == Some(domain)
    ensures r.path == o.path && r.lifetime == o.lifetime && r.httpOnly == o.httpOnly && r.secure == o.secure
  {
    o.(domain := Some(domain))
  }

  function SetPath(o: CookieOptions, path: seq<char>): (r: CookieOptions)
    ensures r.path == Some(path)
    ensures r.domain == o.domain && r.lifetime == o.lifetime && r.httpOnly == o.httpOnly && r.secure == o.secure
  {
    o.(path := Some(path))
  }

  /** Sets Max-Age, given as a whole number of seconds; replaces any expiration. */
  function SetMaxAge(o: CookieOptions, seconds: int): (r: CookieOptions)
    ensures r.lifetime == MaxAgeSeconds(seconds)
    ensures r.domain == o.domain && r.path == o.path && r.httpOnly == o.httpOnly && r.secure == o.secure
  {
    o.(lifetime := MaxAgeSeconds(seconds))
  }

  /** Sets Expires to an instant in seconds since the epoch; replaces any Max-Age. */
  function SetExpiration(o: CookieOptions, time: int): (r: CookieOptions)
    ensures r.lifetime == ExpiresAt(time)
    ensures r.domain == o.domain && r.path == o.path && r.httpOnly == o.httpOnly && r.secure == o.secure
  {
    o.(lifetime := ExpiresAt(time))
  }

  function SetHttpOnly(o: CookieOptions): (r: CookieOptions)
    ensures r.httpOnly
    ensures r.domain == o.domain && r.path == o.path && r.lifetime == o.lifetime && r.secure == o.secure
  {
    o.(httpOnly := true)
  }

  function SetSecure(o: CookieOptions): (r: CookieOptions)
    ensures r.secure
    ensures r.domain == o.domain && r.path == o.path && r.lifetime == o.lifetime && r.httpOnly == o.httpOnly
  {
    o.(secure := true)
  }

  /** A duration of whole minutes in seconds, as a minutes duration converts to a seconds one. */
  function Minutes(m: int): (seconds: int)
    ensures seconds / 60 == m && seconds % 60 == 0
  {
    m * 60
  }

  /** One cookie attribute as it appears on the wire. */
  datatype Attribute =
    | Domain(domain: seq<char>)
    | Path(path: seq<char>)
    | MaxAge(seconds: int)
    | Expires(time: int)
    | HttpOnly
    | Secure

  /** Position of an attribute kind in the fixed wire order. */
  function Rank(a: Attribute): nat {
    match a
    case Domain(_) => 0
    case Path(_) => 1
    case MaxAge(_) => 2
    case Expires(_) => 2
    case HttpOnly => 3
    case Secure => 4
  }

  /** The attributes that are set, in wire order. */
  function Attributes(o: CookieOptions): (attrs: seq<Attribute>) {
    Optional(o.domain.Some?, Domain(o.domain.GetOr([])))
    + Optional(o.path.Some?, Path(o.path.GetOr([])))
    + LifetimeAttributes(o.lifetime)
    + Optional(o.httpOnly, HttpOnly)
    + Optional(o.secure, Secure)
  }

  function Optional(present: bool, a: Attribute): (r: seq<Attribute>)
    ensures |r| <= 1 && (present <==> a in r) && forall i :: 0 <= i < |r| ==> r[i] == a
  {
    if present then [a] else []
  }

  function LifetimeAttributes(l: Lifetime): (r: seq<Attribute>)
    ensures |r| <= 1 && forall i :: 0 <= i < |r| ==> Rank(r[i]) == 2
  {
    match l
    case Session => []
    case MaxAgeSeconds(n) => [MaxAge(n)]
    case ExpiresAt(t) => [Expires(t)]
  }

  /** Attributes appear in the fixed wire order, each kind at most once. */
  lemma AttributesInOrder(o: CookieOptions)
    ensures var attrs := Attributes(o);
      forall i, j :: 0 <= i < j < |attrs| ==> Rank(attrs[i]) < Rank(attrs[j])
  {
    var p0 := Optional(o.domain.Some?, Domain(o.domain.GetOr([])));
    var p1 := Optional(o.path.Some?, Path(o.path.GetOr([])));
    var p2 := LifetimeAttributes(o.lifetime);
    var p3 := Optional(o.httpOnly, HttpOnly);
    var p4 := Optional(o.secure, Secure);
    OrderedAppend(p0, 0, p1, 1);
    OrderedAppend(p0 + p1, 1, p2, 2);
    OrderedAppend(p0 + p1 + p2, 2, p3, 3);
    OrderedAppend(p0 + p1 + p2 + p3, 3, p4, 4);
  }

  /** Ranks ascend in `a` up to `k`, and `b` is at most one attribute of rank `m > k`. */
  predicate Ascending(a: seq<Attribute>, k: nat) {
    (forall i, j :: 0 <= i < j < |a| ==> Rank(a[i]) < Rank(a[j]))
    && forall i :: 0 <= i < |a| ==> Rank(a[i]) <= k
  }

  lemma OrderedAppend(a: seq<Attribute>, k: nat, b: seq<Attribute>, m: nat)
    requires k < m
    requires |a| <= 1 || Ascending(a, k)
    requires |a| <= 1 ==> forall i :: 0 <= i < |a| ==> Rank(a[i]) <= k
    requires |b| <= 1 && forall i :: 0 <= i < |b| ==> Rank(b[i]) == m
    ensures Ascending(a + b, m)
  {
  }

  /** An attribute is in the list exactly when the matching option is set. */
  lemma AttributesPresent(o: CookieOptions)
    ensures forall d :: Domain(d) in Attributes(o) <==> o.domain == Some(d)
    ensures forall p :: Path(p) in Attributes(o) <==> o.path == Some(p)
    ensures forall n :: MaxAge(n) in Attributes(o) <==> o.lifetime == MaxAgeSeconds(n)
    ensures forall t :: Expires(t) in Attributes(o) <==> o.lifetime == ExpiresAt(t)
    ensures HttpOnly in Attributes(o) <==> o.httpOnly
    ensures Secure in Attributes(o) <==> o.secure
  {
    forall d ensures Domain(d) in Attributes(o) <==> o.domain == Some(d) {
      AttributesMember(o, Domain(d));
    }
    forall p ensures Path(p) in Attributes(o) <==> o.path == Some(p) {
      AttributesMember(o, Path(p));
    }
    forall n ensures MaxAge(n) in Attributes(o) <==> o.lifetime == MaxAgeSeconds(n) {
      AttributesMember(o, MaxAge(n));
    }
    forall t ensures Expires(t) in Attributes(o) <==> o.lifetime == ExpiresAt(t) {
      AttributesMember(o, Expires(t));
    }
    AttributesMember(o, HttpOnly);
    AttributesMember(o, Secure);
  }

  /** Membership in the attribute list is membership in one of its five parts. */
  lemma AttributesMember(o: CookieOptions, a: Attribute)
    ensures (a in Attributes(o)) == (
      || a in Optional(o.domain.Some?, Domain(o.domain.GetOr([])))
      || a in Optional(o.path.Some?, Path(o.path.GetOr([])))
      || a in LifetimeAttributes(o.lifetime)
      || a in Optional(o.httpOnly, HttpOnly)
      || a in Optional(o.secure, Secure))
  {
  }

  /** Applies one attribute to an option set. */
  function Apply(o: CookieOptions, a: Attribute): CookieOptions {
    match a
    case Domain(d) => SetDomain(o, d)
    case Path(p) => SetPath(o, p)
    case MaxAge(n) => SetMaxAge(o, n)
    case Expires(t) => SetExpiration(o, t)
    case HttpOnly => SetHttpOnly(o)
    case Secure => SetSecure(o)
  }

  /** The option set an attribute list describes, applying attributes left to right. */
  function OptionsOf(attrs: seq<Attribute>): CookieOptions {
    if |attrs| == 0 then Defaults else Apply(OptionsOf(attrs[..|attrs| - 1]), attrs[|attrs| - 1])
  }

  /** The attribute list loses nothing: the options can be rebuilt from it. */
  lemma OptionsOfAttributes(o: CookieOptions)
    ensures OptionsOf(Attributes(o)) == o
  {
    var b0 := Optional(o.domain.Some?, Domain(o.domain.GetOr([])));
    var b1 := Optional(o.path.Some?, Path(o.path.GetOr([])));
    var b2 := LifetimeAttributes(o.lifetime);
    var b3 := Optional(o.httpOnly, HttpOnly);
    var b4 := Optional(o.secure, Secure);
    var a1 := b0 + b1;
    var a2 := a1 + b2;
    var a3 := a2 + b3;
    assert Attributes(o) == a3 + b4;
    var o0 := Defaults.(domain := o.domain);
    var o1 := o0.(path := o.path);
    var o2 := o1.(lifetime := o.lifetime);
    var o3 := o2.(httpOnly := o.httpOnly);
    assert OptionsOf(b0) == o0 by {
      OptionsOfAppend([], b0);
      assert [] + b0 == b0;
    }
    assert OptionsOf(a1) == o1 by {
      OptionsOfAppend(b0, b1);
    }
    assert OptionsOf(a2) == o2 by {
      OptionsOfAppend(a1, b2);
      match o.lifetime
      case Session =>
      case MaxAgeSeconds(n) => assert b2 == [MaxAge(n)];
      case ExpiresAt(t) => assert b2 == [Expires(t)];
    }
    assert OptionsOf(a3) == o3 by {
      OptionsOfAppend(a2, b3);
    }
    OptionsOfAppend(a3, b4);
  }

  /** Appending at most one attribute applies it to the options built so far. */
  lemma OptionsOfAppend(a: seq<Attribute>, b: seq<Attribute>)
    requires |b| <= 1
    ensures OptionsOf(a + b) == if |b| == 0 then OptionsOf(a) else Apply(OptionsOf(a), b[0])
  {
    if |b| == 0 {
      assert a + b == a;
    } else {
      assert (a + b)[..|a + b| - 1] == a;
    }
  }

  /** An attribute's text after the "; " that introduces it. */
  function AttributeText(a: Attribute): seq<char> {
    match a
    case Domain(d) => "Domain=" + d
    case Path(p) => "Path=" + p
    case MaxAge(n) => "Max-Age=" + Decimal.FromInt(n)
    case Expires(t) => "Expires=" + HttpDate.Format(t)
    case HttpOnly => "HttpOnly"
    case Secure => "Secure"
  }

  /** The pieces between the ';' separators: `name=value`, then " " and each attribute. */
  function Pieces(name: seq<char>, value: seq<char>, attrs: seq<Attribute>): seq<seq<char>> {
    [name + "=" + value] + AttributeParts(attrs)
  }

  /** Each attribute as the piece that follows a ';': a space, then its text. */
  function AttributeParts(attrs: seq<Attribute>): (ps: seq<seq<char>>)
    ensures |ps| == |attrs|
    ensures forall i :: 0 <= i < |attrs| ==> ps[i] == " " + AttributeText(attrs[i])
  {
    if |attrs| == 0 then [] else [" " + AttributeText(attrs[0])] + AttributeParts(attrs[1..])
  }

  /** The `Set-Cookie` field value for a cookie. */
  function Encode(name: seq<char>, value: seq<char>, o: CookieOptions): seq<char> {
    Join(Pieces(name, value, Attributes(o)), ';')
  }

  /**
    Reads an attribute back from its text. Only the exact spelling the
    encoder produces is accepted: the candidate is rendered again and
    compared.
   */
  function ParseAttribute(t: seq<char>): (r: Option<Attribute>)
    ensures r.Some? ==> AttributeText(r.value) == t
  {
    var candidate :- Candidate(t);
    if AttributeText(candidate) == t then Some(candidate) else None
  }

  /** The attribute `t` names by its keyword, with the value read leniently. */
  function Candidate(t: seq<char>): Option<Attribute> {
    if t == "HttpOnly" then Some(HttpOnly)
    else if t == "Secure" then Some(Secure)
    else if "Domain=" <= t then Some(Domain(t[7..]))
    else if "Path=" <= t then Some(Path(t[5..]))
    else if "Max-Age=" <= t then
      (match Decimal.ParseInt(t[8..]) case Some(n) => Some(MaxAge(n)) case None => None)
    else if "Expires=" <= t then
      (match HttpDate.Parse(t[8..]) case Some(e) => Some(Expires(e)) case None => None)
    else None
  }

  /** An attribute the encoder can write so that it reads back. */
  predicate Readable(a: Attribute) {
    match a
    case Domain(d) => ';' !in d
    case Path(p) => ';' !in p
    case Expires(t) => 0 <= CivilTime.FromEpoch(t).year <= 9999
    case _ => true
  }

  lemma ParseAttributeText(a: Attribute)
    requires Readable(a)
    ensures ParseAttribute(AttributeText(a)) == Some(a)
  {
    match a
    case Domain(d) => ParseDomain(d);
    case Path(p) => ParsePath(p);
    case MaxAge(n) => ParseMaxAge(n);
    case Expires(e) => ParseExpires(e);
    case HttpOnly =>
    case Secure =>
  }

  lemma ParseDomain(d: seq<char>)
    ensures ParseAttribute("Domain=" + d) == Some(Domain(d))
  {
    var t := "Domain=" + d;
    assert t[0] == 'D' && "Domain=" <= t && t[7..] == d;
  }

  lemma ParsePath(p: seq<char>)
    ensures ParseAttribute("Path=" + p) == Some(Path(p))
  {
    var t := "Path=" + p;
    assert t[0] == 'P' && "Path=" <= t && t[5..] == p;
  }

  lemma ParseMaxAge(n: int)
    ensures ParseAttribute("Max-Age=" + Decimal.FromInt(n)) == Some(MaxAge(n))
  {
    CandidateMaxAge(n);
    MaxAgeText(n);
  }

  lemma CandidateMaxAge(n: int)
    ensures Candidate("Max-Age=" + Decimal.FromInt(n)) == Some(MaxAge(n))
  {
    Decimal.ParseFromInt(n);
    CandidateNumber(Decimal.FromInt(n), n);
  }

  lemma CandidateNumber(d: seq<char>, n: int)
    requires Decimal.ParseInt(d) == Some(n)
    ensures Candidate("Max-Age=" + d) == Some(MaxAge(n))
  {
    var t := "Max-Age=" + d;
    assert t[0] == 'M' && "Max-Age=" <= t && t[8..] == d;
  }

  lemma MaxAgeText(n: int)
    ensures AttributeText(MaxAge(n)) == "Max-Age=" + Decimal.FromInt(n)
  {
  }

  lemma ParseExpires(e: int)
    requires 0 <= CivilTime.FromEpoch(e).year <= 9999
    ensures ParseAttribute("Expires=" + HttpDate.Format(e)) == Some(Expires(e))
  {
    CandidateExpires(e);
    ExpiresText(e);
  }

  lemma CandidateExpires(e: int)
    requires 0 <= CivilTime.FromEpoch(e).year <= 9999
    ensures Candidate("Expires=" + HttpDate.Format(e)) == Some(Expires(e))
  {
    HttpDate.ParseFormat(e);
    CandidateDate(HttpDate.Format(e), e);
  }

  /** A text that starts with another character does not start with `p`. */
  lemma NotPrefix(p: seq<char>, t: seq<char>)
    requires |p| > 0 && |t| > 0 && p[0] != t[0]
    ensures !(p <= t)
  {
  }

  lemma CandidateDate(d: seq<char>, e: int)
    requires HttpDate.Parse(d) == Some(e)
    ensures Candidate("Expires=" + d) == Some(Expires(e))
  {
    var t := "Expires=" + d;
    assert t[0] == 'E' && "Expires=" <= t && t[8..] == d;
    assert t != "HttpOnly" && t != "Secure";
    NotPrefix("Domain=", t);
    NotPrefix("Path=", t);
    NotPrefix("Max-Age=", t);
  }

  /** Splits `name=value` at the first '='. */
  function ParsePair(p: seq<char>): (r: Option<(seq<char>, seq<char>)>)
    ensures r.Some? ==> p == r.value.0 + "=" + r.value.1 && '=' !in r.value.0
  {
    var i := Find(p, '=');
    if i == |p| then None
    else
      assert p == p[..i] + "=" + p[i + 1..];
      Some((p[..i], p[i + 1..]))
  }

  /** Reads the pieces after `name=value`: each is " " and an attribute text. */
  function ParseAttributes(parts: seq<seq<char>>): (r: Option<seq<Attribute>>)
    ensures r.Some? ==> parts == AttributeParts(r.value)
  {
    if |parts| == 0 then Some([])
    else if |parts[0]| == 0 || parts[0][0] != ' ' then None
    else
      var a :- ParseAttribute(parts[0][1..]);
      var rest :- ParseAttributes(parts[1..]);
      assert parts[0] == " " + parts[0][1..];
      Some([a] + rest)
  }

  /**
    Reads a `Set-Cookie` field value back into name, value and options.
    Only the encoder's own spelling is accepted: attributes in wire order,
    each kind at most once.
   */
  function ParseSetCookie(s: seq<char>): Option<(seq<char>, seq<char>, CookieOptions)> {
    var parts := Split(s, ';');
    var pair :- ParsePair(parts[0]);
    var attrs :- ParseAttributes(parts[1..]);
    var o := OptionsOf(attrs);
    if Attributes(o) == attrs then Some((pair.0, pair.1, o)) else None
  }

  /** Options whose every attribute reads back: no ';' in Domain or Path, an Expires year of four digits. */
  predicate Encodable(o: CookieOptions) {
    && (o.domain.Some? ==> ';' !in o.domain.value)
    && (o.path.Some? ==> ';' !in o.path.value)
    && (o.lifetime.ExpiresAt? ==> 0 <= CivilTime.FromEpoch(o.lifetime.time).year <= 9999)
  }

  /** A cookie name is a token: no '=' and no ';'; a value holds no ';'. */
  predicate EncodableCookie(name: seq<char>, value: seq<char>, o: CookieOptions) {
    '=' !in name && ';' !in name && ';' !in value && Encodable(o)
  }

  /** No attribute text holds a ';', so attributes never run into each other. */
  lemma AttributeTextHasNoSemicolon(a: Attribute)
    requires Readable(a)
    ensures ';' !in AttributeText(a)
  {
    AttributeTextAvoids(a, ';');
  }

  lemma AttributesReadable(o: CookieOptions)
    requires Encodable(o)
    ensures forall k :: 0 <= k < |Attributes(o)| ==> Readable(Attributes(o)[k])
  {
    AttributesPresent(o);
    forall k | 0 <= k < |Attributes(o)|
      ensures Readable(Attributes(o)[k])
    {
      var a := Attributes(o)[k];
      assert a in Attributes(o);
      match a
      case Domain(d) =>
      case Path(p) =>
      case Expires(t) =>
      case _ =>
    }
  }

  lemma {:induction false} ParseAttributesOf(attrs: seq<Attribute>)
    requires forall k :: 0 <= k < |attrs| ==> Readable(attrs[k])
    ensures ParseAttributes(AttributeParts(attrs)) == Some(attrs)
    decreases |attrs|
  {
    if |attrs| > 0 {
      var rest := attrs[1..];
      assert forall k :: 0 <= k < |rest| ==> Readable(rest[k]) by {
        forall k | 0 <= k < |rest| ensures Readable(rest[k]) {
          assert rest[k] == attrs[k + 1];
        }
      }
      ParseAttributesOf(rest);
      ParseAttributeText(attrs[0]);
      ParseAttributesCons(AttributeParts(attrs), attrs[0], rest);
      assert [attrs[0]] + rest == attrs;
    }
  }

  /** One parsing step: a leading part that reads back as `a`, then the rest. */
  lemma ParseAttributesCons(parts: seq<seq<char>>, a: Attribute, rest: seq<Attribute>)
    requires |parts| > 0 && parts[0] == " " + AttributeText(a)
    requires ParseAttribute(AttributeText(a)) == Some(a)
    requires ParseAttributes(parts[1..]) == Some(rest)
    ensures ParseAttributes(parts) == Some([a] + rest)
  {
    assert parts[0][1..] == AttributeText(a);
  }

  lemma ParsePairOf(name: seq<char>, value: seq<char>)
    requires '=' !in name
    ensures ParsePair(name + "=" + value) == Some((name, value))
  {
    var p := name + "=" + value;
    assert p == name + ['='] + value;
    FindFirst(name, '=', value);
    assert p[..|name|] == name && p[|name| + 1..] == value;
  }

  lemma PiecesHaveNoSemicolon(name: seq<char>, value: seq<char>, o: CookieOptions)
    requires EncodableCookie(name, value, o)
    ensures forall k :: 0 <= k < |Pieces(name, value, Attributes(o))| ==> ';' !in Pieces(name, value, Attributes(o))[k]
  {
    var attrs := Attributes(o);
    var pieces := Pieces(name, value, attrs);
    AttributesReadable(o);
    forall k | 0 <= k < |pieces|
      ensures ';' !in pieces[k]
    {
      if k > 0 {
        AttributeTextHasNoSemicolon(attrs[k - 1]);
        assert pieces[k] == " " + AttributeText(attrs[k - 1]);
      }
    }
  }

  /**
    A character that no date, number or attribute keyword uses appears in
    an attribute's text only if the caller put it in the domain or path.
   */
  lemma AttributeTextAvoids(a: Attribute, c: char)
    requires !HttpDate.IsDateChar(c) && c != '='
    requires a.Domain? ==> c !in a.domain
    requires a.Path? ==> c !in a.path
    ensures c !in AttributeText(a)
  {
    match a
    case MaxAge(n) => MaxAgeAvoids(n, c);
    case Expires(e) => ExpiresAvoids(e, c);
    case Domain(d) =>
      KeywordAvoids("Domain=", c);
      assert AttributeText(a) == "Domain=" + d;
    case Path(p) =>
      KeywordAvoids("Path=", c);
      assert AttributeText(a) == "Path=" + p;
    case HttpOnly =>
      KeywordAvoids("HttpOnly", c);
    case Secure =>
      KeywordAvoids("Secure", c);
  }

  lemma MaxAgeAvoids(n: int, c: char)
    requires !HttpDate.IsDateChar(c) && c != '='
    ensures c !in AttributeText(MaxAge(n))
  {
    var d := Decimal.FromInt(n);
    assert forall i :: 0 <= i < |d| ==> Decimal.IsDigit(d[i]) || d[i] == '-' by {
      if n < 0 {
        assert forall i :: 1 <= i < |d| ==> d[i] == d[1..][i - 1];
      }
    }
    assert c !in d;
    KeywordAvoids("Max-Age=", c);
    assert AttributeText(MaxAge(n)) == "Max-Age=" + d;
  }

  lemma ExpiresAvoids(e: int, c: char)
    requires !HttpDate.IsDateChar(c) && c != '='
    ensures c !in AttributeText(Expires(e))
  {
    KeywordDateAvoids(e, c);
    ExpiresText(e);
  }

  lemma KeywordDateAvoids(e: int, c: char)
    requires !HttpDate.IsDateChar(c) && c != '='
    ensures c !in "Expires=" + HttpDate.Format(e)
  {
    ExpiresKeywordAvoids(c);
    HttpDate.FormatAvoids(e, c);
    AppendAvoids("Expires=", HttpDate.Format(e), c);
  }

  lemma ExpiresKeywordAvoids(c: char)
    requires !HttpDate.IsDateChar(c) && c != '='
    ensures c !in "Expires="
  {
    KeywordAvoids("Expires=", c);
  }

  lemma ExpiresText(e: int)
    ensures AttributeText(Expires(e)) == "Expires=" + HttpDate.Format(e)
  {
  }

  lemma AppendAvoids(a: seq<char>, b: seq<char>, c: char)
    requires c !in a && c !in b
    ensures c !in a + b
  {
  }

  lemma KeywordAvoids(k: seq<char>, c: char)
    requires forall i :: 0 <= i < |k| ==> HttpDate.IsDateChar(k[i]) || k[i] == '='
    requires !HttpDate.IsDateChar(c) && c != '='
    ensures c !in k
  {
  }

  /**
    The same for a whole Set-Cookie value: such a character appears only if
    the caller put it in the name, the value, the domain or the path. A CR
    in none of them means the value stays on one header line.
   */
  lemma EncodeAvoids(name: seq<char>, value: seq<char>, o: CookieOptions, c: char)
    requires !HttpDate.IsDateChar(c) && c != '=' && c != ';'
    requires c !in name && c !in value
    requires o.domain.Some? ==> c !in o.domain.value
    requires o.path.Some? ==> c !in o.path.value
    ensures c !in Encode(name, value, o)
  {
    var attrs := Attributes(o);
    var pieces := Pieces(name, value, attrs);
    AttributesPresent(o);
    forall k | 0 <= k < |pieces|
      ensures c !in pieces[k]
    {
      if k > 0 {
        var a := attrs[k - 1];
        assert a in attrs;
        AttributeTextAvoids(a, c);
        assert pieces[k] == " " + AttributeText(a);
      }
    }
    JoinAvoids(pieces, ';', c);
  }

  /** Round trip: a cookie encoded by the responder reads back as the same name, value and options. */
  lemma ParseEncode(name: seq<char>, value: seq<char>, o: CookieOptions)
    requires EncodableCookie(name, value, o)
    ensures ParseSetCookie(Encode(name, value, o)) == Some((name, value, o))
  {
    var attrs := Attributes(o);
    var pieces := Pieces(name, value, attrs);
    PiecesHaveNoSemicolon(name, value, o);
    SplitJoin(pieces, ';');
    assert Split(Encode(name, value, o), ';') == pieces;
    ParsePairOf(name, value);
    AttributesReadable(o);
    ParseAttributesOf(attrs);
    assert pieces[1..] == AttributeParts(attrs);
    OptionsOfAttributes(o);
  }

  /** The other round trip: whatever the parser accepts is exactly the encoding of what it returns. */
  lemma EncodeParse(s: seq<char>)
    requires ParseSetCookie(s).Some?
    ensures var (name, value, o) := ParseSetCookie(s).value; Encode(name, value, o) == s
  {
    var parts := Split(s, ';');
    var (name, value, o) := ParseSetCookie(s).value;
    var attrs := ParseAttributes(parts[1..]).value;
    JoinSplit(s, ';');
    assert Pieces(name, value, attrs) == parts;
  }
}

=== FILE: cookie_examples.dfy ===
/**
  The Set-Cookie values and the date of the responder's documented
  exchanges, each stated as the exact text the encoder produces.
 */
module CookieExamples {
  import opened Text
  import Decimal
  import CivilTime
  import HttpDate
  import opened Cookie
  import ExampleTexts

  /** 2013-01-15 21:47:38 UTC, a Tuesday, is epoch second 1358286458. */
  lemma ExampleInstant()
    ensures CivilTime.FromEpoch(1358286458) == CivilTime.UtcTime(2013, 1, 15, 21, 47, 38, 2)
  {
    var u := CivilTime.UtcTime(2013, 1, 15, 21, 47, 38, 2);
    assert CivilTime.DaysBeforeYear(2013) == 15706;
    assert CivilTime.DayNumber(2013, 1, 15) == 15720;
    assert CivilTime.WeekdayOfDay(15720) == 2;
    assert CivilTime.Valid(u);
    assert CivilTime.ToEpoch(u) == 1358286458;
    CivilTime.FromEpochToEpoch(u);
  }

  lemma ExampleDigits()
    ensures Decimal.FromNat(15) == "15" && Decimal.FromNat(21) == "21"
    ensures Decimal.FromNat(47) == "47" && Decimal.FromNat(38) == "38"
    ensures Decimal.FromNat(2013) == "2013"
  {
  }

  /** A number already as wide as its field is written without padding. */
  lemma FullWidth(n: nat, s: seq<char>)
    requires Decimal.FromNat(n) == s
    ensures Decimal.Fixed(n, |s|) == s
  {
  }

  /** The expiry date of the cookie example, as an IMF-fixdate. */
  lemma ExampleDate()
    ensures HttpDate.Format(1358286458) == "Tue, 15 Jan 2013 21:47:38 GMT"
  {
    ExampleInstant();
    CivilTime.FromEpochValid(1358286458);
    ExampleDigits();
    FormatAs(1358286458, CivilTime.UtcTime(2013, 1, 15, 21, 47, 38, 2), "15", "2013", "21", "47", "38");
    ExampleNames();
    ExampleDateText();
  }

  /** The date text of an instant whose fields are written without padding. */
  lemma FormatAs(t: int, u: CivilTime.UtcTime, day: seq<char>, year: seq<char>,
                 hh: seq<char>, mm: seq<char>, ss: seq<char>)
    requires CivilTime.FromEpoch(t) == u && CivilTime.Valid(u)
    requires Decimal.FromNat(u.day) == day && |day| == 2
    requires 0 <= u.year && Decimal.FromNat(u.year) == year && |year| == 4
    requires Decimal.FromNat(u.hour) == hh && |hh| == 2
    requires Decimal.FromNat(u.minute) == mm && |mm| == 2
    requires Decimal.FromNat(u.second) == ss && |ss| == 2
    ensures HttpDate.Format(t)
      == HttpDate.Assemble(HttpDate.DayNames[u.weekday], day, HttpDate.MonthNames[u.month - 1], year, hh, mm, ss)
  {
    FullWidth(u.day, day);
    FullWidth(u.year, year);
    FullWidth(u.hour, hh);
    FullWidth(u.minute, mm);
    FullWidth(u.second, ss);
  }

  lemma ExampleNames()
    ensures HttpDate.DayNames[2] == "Tue" && HttpDate.MonthNames[0] == "Jan"
  {
  }

  lemma ExampleDateText()
    ensures HttpDate.Assemble("Tue", "15", "Jan", "2013", "21", "47", "38") == "Tue, 15 Jan 2013 21:47:38 GMT"
  {
    AssembleFlat("Tue", "15", "Jan", "2013", "21", "47", "38");
    ExampleTexts.DateText();
  }

  /** The date layout, concatenated from the left. */
  lemma AssembleFlat(wd: seq<char>, day: seq<char>, mon: seq<char>, year: seq<char>,
                     hh: seq<char>, mm: seq<char>, ss: seq<char>)
    ensures HttpDate.Assemble(wd, day, mon, year, hh, mm, ss)
      == wd + ", " + day + " " + mon + " " + year + " " + hh + ":" + mm + ":" + ss + " GMT"
  {
  }

  lemma JoinTwo(a: seq<char>, b: seq<char>)
    ensures Join([a, b], ';') == a + (";" + b)
  {
    assert [a, b][1..] == [b];
  }

  lemma JoinThree(a: seq<char>, b: seq<char>, c: seq<char>)
    ensures Join([a, b, c], ';') == a + ((";" + b) + (";" + c))
  {
    assert [a, b, c][1..] == [b, c];
    JoinTwo(b, c);
    assert Join([a, b, c], ';') == a + ";" + (b + (";" + c));
  }

  lemma JoinFour(a: seq<char>, b: seq<char>, c: seq<char>, d: seq<char>)
    ensures Join([a, b, c, d], ';') == a + ((";" + b) + ((";" + c) + (";" + d)))
  {
    assert [a, b, c, d][1..] == [b, c, d];
    JoinThree(b, c, d);
    assert Join([a, b, c, d], ';') == a + ";" + (b + ((";" + c) + (";" + d)));
  }

  /** A separator followed by an attribute piece reads "; " and the attribute text. */
  lemma Separated(t: seq<char>)
    ensures ";" + (" " + t) == "; " + t
  {
    assert ";" + " " == "; ";
  }

  lemma EncodeAs(name: seq<char>, value: seq<char>, o: CookieOptions, pieces: seq<seq<char>>)
    requires Pieces(name, value, Attributes(o)) == pieces
    ensures Encode(name, value, o) == Join(pieces, ';')
  {
  }

  lemma PiecesOne(name: seq<char>, value: seq<char>, a: Attribute)
    ensures Pieces(name, value, [a]) == [name + "=" + value, " " + AttributeText(a)]
  {
  }

  lemma PiecesTwo(name: seq<char>, value: seq<char>, a: Attribute, b: Attribute)
    ensures Pieces(name, value, [a, b]) == [name + "=" + value, " " + AttributeText(a), " " + AttributeText(b)]
  {
    assert [a, b][1..] == [b];
  }

  lemma PiecesThree(name: seq<char>, value: seq<char>, a: Attribute, b: Attribute, c: Attribute)
    ensures Pieces(name, value, [a, b, c])
      == [name + "=" + value, " " + AttributeText(a), " " + AttributeText(b), " " + AttributeText(c)]
  {
    var ps := AttributeParts([a, b, c]);
    ConsThree(name + "=" + value, ps);
    assert ps[0] == " " + AttributeText(a);
    assert ps[1] == " " + AttributeText(b);
    assert ps[2] == " " + AttributeText(c);
  }

  /** An element in front of three, as a display of four. */
  lemma ConsThree<T>(h: T, ps: seq<T>)
    requires |ps| == 3
    ensures [h] + ps == [h, ps[0], ps[1], ps[2]]
  {
  }

  /** A cookie with one attribute. */
  lemma EncodeOne(name: seq<char>, value: seq<char>, o: CookieOptions, a: Attribute)
    requires Attributes(o) == [a]
    ensures Encode(name, value, o) == name + "=" + value + ("; " + AttributeText(a))
  {
    var pair, ta := name + "=" + value, AttributeText(a);
    PiecesOne(name, value, a);
    EncodeAs(name, value, o, [pair, " " + ta]);
    JoinTwo(pair, " " + ta);
    Separated(ta);
  }

  /** A cookie with two attributes. */
  lemma EncodeTwo(name: seq<char>, value: seq<char>, o: CookieOptions, a: Attribute, b: Attribute)
    requires Attributes(o) == [a, b]
    ensures Encode(name, value, o) == name + "=" + value + (("; " + AttributeText(a)) + ("; " + AttributeText(b)))
  {
    var pair, ta, tb := name + "=" + value, AttributeText(a), AttributeText(b);
    PiecesTwo(name, value, a, b);
    EncodeAs(name, value, o, [pair, " " + ta, " " + tb]);
    JoinThree(pair, " " + ta, " " + tb);
    Separated(ta);
    Separated(tb);
  }

  /** A cookie with three attributes. */
  lemma EncodeThree(name: seq<char>, value: seq<char>, o: CookieOptions, a: Attribute, b: Attribute, c: Attribute)
    requires Attributes(o) == [a, b, c]
    ensures Encode(name, value, o)
      == name + "=" + value + (("; " + AttributeText(a)) + (("; " + AttributeText(b)) + ("; " + AttributeText(c))))
  {
    var pair, ta, tb, tc := name + "=" + value, AttributeText(a), AttributeText(b), AttributeText(c);
    PiecesThree(name, value, a, b, c);
    EncodeAs(name, value, o, [pair, " " + ta, " " + tb, " " + tc]);
    JoinFour(pair, " " + ta, " " + tb, " " + tc);
    Separated(ta);
    Separated(tb);
    Separated(tc);
  }

  lemma Assoc(a: seq<char>, b: seq<char>, c: seq<char>)
    ensures a + (b + c) == a + b + c
  {
  }

  /** Domain, path and a ten-minute lifetime, as the options of the second cookie example. */
  function SimpleOptions(): CookieOptions {
    SetMaxAge(SetPath(SetDomain(Defaults, "example.com"), "/some/path"), Minutes(10))
  }

  lemma SimpleOptionsAttributes()
    ensures Attributes(SimpleOptions()) == [Domain("example.com"), Path("/some/path"), MaxAge(600)]
    ensures AttributeText(MaxAge(600)) == "Max-Age=600"
  {
    assert Decimal.FromNat(600) == "600";
  }

  lemma LocationTexts(d: seq<char>, p: seq<char>)
    ensures AttributeText(Domain(d)) == "Domain=" + d && AttributeText(Path(p)) == "Path=" + p
  {
  }

  /** The attributes go in the order Domain, Path, Max-Age, each after "; ". */
  lemma SimpleOptionsEncode()
    ensures Encode("First", "One", SimpleOptions())
      == "First=One" + ("; Domain=example.com" + ("; Path=/some/path" + "; Max-Age=600"))
  {
    SimpleOptionsAttributes();
    EncodeThree("First", "One", SimpleOptions(), Domain("example.com"), Path("/some/path"), MaxAge(600));
    LocationTexts("example.com", "/some/path");
    Assoc("; ", "Domain=", "example.com");
    Assoc("; ", "Path=", "/some/path");
    ExampleTexts.FirstPair();
    ExampleTexts.SimpleOptionsTexts();
  }

  /** An expiration time, as the options of the third cookie example. */
  function ExpiringOptions(): CookieOptions {
    SetExpiration(Defaults, 1358286458)
  }

  /** Both flags, as the options of the last cookie example. */
  function FlagOptions(): CookieOptions {
    SetSecure(SetHttpOnly(Defaults))
  }

  lemma ExpirationAttributes(t: int)
    ensures Attributes(SetExpiration(Defaults, t)) == [Expires(t)]
  {
  }

  lemma ExpiresTextOf(t: int, date: seq<char>)
    requires HttpDate.Format(t) == date
    ensures AttributeText(Expires(t)) == "Expires=" + date
  {
  }

  /** A cookie expiring at `t`, whatever the date text of `t` is. */
  lemma ExpirationEncodeOf(name: seq<char>, value: seq<char>, t: int, date: seq<char>)
    requires HttpDate.Format(t) == date
    ensures Encode(name, value, SetExpiration(Defaults, t)) == name + "=" + value + ("; Expires=" + date)
  {
    ExpirationAttributes(t);
    EncodeOne(name, value, SetExpiration(Defaults, t), Expires(t));
    ExpiresTextOf(t, date);
    Assoc("; ", "Expires=", date);
    ExampleTexts.ExpiresKeyword();
  }

  /** An expiration time becomes an Expires attribute holding the IMF-fixdate. */
  lemma ExpirationEncode()
    ensures Encode("First", "One", ExpiringOptions()) == "First=One" + ("; Expires=" + "Tue, 15 Jan 2013 21:47:38 GMT")
  {
    ExampleDate();
    ExpirationEncodeOf("First", "One", 1358286458, "Tue, 15 Jan 2013 21:47:38 GMT");
    ExampleTexts.FirstPair();
  }

  lemma FlagTexts()
    ensures AttributeText(HttpOnly) == "HttpOnly" && AttributeText(Secure) == "Secure"
  {
  }

  /** The two flags go in the order HttpOnly, Secure, without values. */
  lemma FlagsEncode()
    ensures Encode("First", "One", FlagOptions()) == "First=One" + ("; HttpOnly" + "; Secure")
  {
    assert Attributes(FlagOptions()) == [HttpOnly, Secure];
    EncodeTwo("First", "One", FlagOptions(), HttpOnly, Secure);
    FlagTexts();
    ExampleTexts.FirstPair();
    ExampleTexts.FlagsTexts();
  }
}

=== FILE: decimal.dfy ===
/**
  Decimal rendering of integers, as the responder uses it for status codes,
  the automatic Content-Length value, cookie Max-Age seconds and the numeric
  fields of an HTTP-date; together with the parser that undoes it.
 */
module Decimal {
  import opened Wrappers

  predicate IsDigit(c: char) {
    '0' <= c <= '9'
  }

  predicate AllDigits(s: seq<char>) {
    forall i :: 0 <= i < |s| ==> IsDigit(s[i])
  }

  /** A digit string in shortest form: non-empty, and no leading zero unless it is "0". */
  predicate Canonical(s: seq<char>) {
    |s| >= 1 && AllDigits(s) && (|s| > 1 ==> s[0] != '0')
  }

  function DigitChar(d: nat): (c: char)
    requires d < 10
    ensures IsDigit(c)
  {
    ('0' as int + d) as char
  }

  function DigitValue(c: char): (d: nat)
    requires IsDigit(c)
    ensures d < 10 && DigitChar(d) == c
  {
    c as int - '0' as int
  }

  function Pow10(k: nat): (p: nat)
    ensures p >= 1
  {
    if k == 0 then 1 else 10 * Pow10(k - 1)
  }

  /** The shortest decimal spelling of `n`. */
  function FromNat(n: nat): (s: seq<char>)
    ensures Canonical(s)
    ensures n < Pow10(|s|)
    ensures |s| > 1 ==> Pow10(|s| - 1) <= n
  {
    if n < 10 then [DigitChar(n)] else FromNat(n / 10) + [DigitChar(n % 10)]
  }

  /** The value of a digit string, most significant digit first. */
  function ToNat(s: seq<char>): nat
    requires AllDigits(s)
  {
    if |s| == 0 then 0 else ToNat(s[..|s| - 1]) * 10 + DigitValue(s[|s| - 1])
  }

  /** Parses a non-empty run of digits; anything else is rejected. */
  function ParseNat(s: seq<char>): (r: Option<nat>)
    ensures r.Some? <==> |s| >= 1 && AllDigits(s)
  {
    if |s| >= 1 && AllDigits(s) then Some(ToNat(s)) else None
  }

  lemma {:induction false} ToNatFromNat(n: nat)
    ensures ToNat(FromNat(n)) == n
  {
    if n >= 10 {
      var s := FromNat(n);
      assert s[..|s| - 1] == FromNat(n / 10);
      ToNatFromNat(n / 10);
    }
  }

  lemma {:induction false} FromNatToNat(s: seq<char>)
    requires Canonical(s)
    ensures FromNat(ToNat(s)) == s
    decreases |s|
  {
    if |s| > 1 {
      var p := s[..|s| - 1];
      assert Canonical(p);
      ToNatPositive(p);
      FromNatToNat(p);
      assert ToNat(s) / 10 == ToNat(p);
      assert FromNat(ToNat(s)) == FromNat(ToNat(p)) + [DigitChar(ToNat(s) % 10)];
    }
  }

  /** A digit string that does not start with '0' has a positive value. */
  lemma {:induction false} ToNatPositive(s: seq<char>)
    requires AllDigits(s) && |s| >= 1 && s[0] != '0'
    ensures ToNat(s) >= 1
    decreases |s|
  {
    if |s| > 1 {
      ToNatPositive(s[..|s| - 1]);
    }
  }

  /** Round trip: rendering then parsing a natural number gives it back. */
  lemma ParseFromNat(n: nat)
    ensures ParseNat(FromNat(n)) == Some(n)
  {
    ToNatFromNat(n);
  }

  /** `s` preceded by enough '0' characters to make it at least `width` long. */
  function PadLeft(s: seq<char>, width: nat): (r: seq<char>)
    ensures |r| == if |s| < width then width else |s|
    ensures r[|r| - |s|..] == s
    ensures forall i :: 0 <= i < |r| - |s| ==> r[i] == '0'
  {
    if |s| < width then seq(width - |s|, _ => '0') + s else s
  }

  /** Leading zeros do not change the value of a digit string. */
  lemma {:induction false} ToNatLeadingZeros(z: nat, s: seq<char>)
    requires AllDigits(s)
    ensures AllDigits(seq(z, _ => '0') + s)
    ensures ToNat(seq(z, _ => '0') + s) == ToNat(s)
    decreases |s|
  {
    var t := seq(z, _ => '0') + s;
    if |s| == 0 {
      assert t == seq(z, _ => '0');
      AllZeros(z);
    } else {
      assert t[..|t| - 1] == seq(z, _ => '0') + s[..|s| - 1];
      ToNatLeadingZeros(z, s[..|s| - 1]);
    }
  }

  lemma {:induction false} AllZeros(z: nat)
    ensures ToNat(seq(z, _ => '0')) == 0
  {
    if z > 0 {
      assert seq(z, _ => '0')[..z - 1] == seq(z - 1, _ => '0');
      AllZeros(z - 1);
    }
  }

  /** `n` zero-padded to at least `width` digits, as the `%02d`-style fields of a date. */
  function Fixed(n: nat, width: nat): (r: seq<char>)
    ensures AllDigits(r) && |r| >= width && |r| >= 1
    ensures 1 <= width && n < Pow10(width) ==> |r| == width
    ensures ToNat(r) == n
  {
    var s := FromNat(n);
    LengthBound(n, s, width);
    ToNatFromNat(n);
    if |s| < width then
      ToNatLeadingZeros(width - |s|, s);
      PadLeft(s, width)
    else
      PadLeft(s, width)
  }

  /** A digit field of width `|s|` renders back to exactly the digits it was read from. */
  lemma {:induction false} FixedOfDigits(s: seq<char>)
    requires AllDigits(s) && |s| >= 1
    ensures Fixed(ToNat(s), |s|) == s
    decreases |s|
  {
    if |s| > 1 && s[0] == '0' {
      var t := s[1..];
      FixedOfDigits(t);
      FixedLeadingZero(s, t);
    } else {
      FromNatToNat(s);
    }
  }

  /** One more leading zero widens the padding by one and keeps the value. */
  lemma FixedLeadingZero(s: seq<char>, t: seq<char>)
    requires AllDigits(s) && |s| > 1 && s[0] == '0' && t == s[1..]
    requires Fixed(ToNat(t), |t|) == t
    ensures Fixed(ToNat(s), |s|) == s
  {
    assert s == seq(1, _ => '0') + t;
    ToNatLeadingZeros(1, t);
    assert ToNat(s) == ToNat(t);
    var f := FromNat(ToNat(t));
    FixedPads(ToNat(t), |t|);
    PadLeftZero(f, t);
    FixedPads(ToNat(s), |s|);
    assert ['0'] + t == s;
  }

  /** Fixed is the canonical digits, padded. */
  lemma FixedPads(n: nat, width: nat)
    ensures Fixed(n, width) == PadLeft(FromNat(n), width)
  {
  }

  /** Padding one place wider puts one more zero in front. */
  lemma PadLeftZero(f: seq<char>, t: seq<char>)
    requires PadLeft(f, |t|) == t
    ensures PadLeft(f, |t| + 1) == ['0'] + t
  {
    var z: seq<char> := seq(|t| - |f|, _ => '0');
    var z1: seq<char> := seq(|t| + 1 - |f|, _ => '0');
    if |f| < |t| {
      assert t == z + f;
      assert z1 == ['0'] + z;
      assert PadLeft(f, |t| + 1) == z1 + f;
    } else {
      assert t == f;
      assert |z1| == 1 && z1[0] == '0';
      assert PadLeft(f, |t| + 1) == z1 + f;
    }
  }

  /** A string of `k` digits denotes a number below 10^k. */
  lemma {:induction false} ToNatBound(s: seq<char>)
    requires AllDigits(s)
    ensures ToNat(s) < Pow10(|s|)
    decreases |s|
  {
    if |s| > 0 {
      ToNatBound(s[..|s| - 1]);
    }
  }

  /** A number between 10^(k-1) and 10^k has exactly `k` digits. */
  lemma DigitCount(n: nat, k: nat)
    requires k >= 1 && Pow10(k - 1) <= n < Pow10(k)
    ensures |FromNat(n)| == k
  {
    var s := FromNat(n);
    LengthBound(n, s, k);
    if |s| < k {
      Pow10Monotone(|s|, k - 1);
    }
  }

  lemma LengthBound(n: nat, s: seq<char>, width: nat)
    requires s == FromNat(n)
    ensures 1 <= width && n < Pow10(width) ==> |s| <= width
  {
    if 1 <= width && n < Pow10(width) && |s| > width {
      Pow10Monotone(width, |s| - 1);
    }
  }

  lemma {:induction false} Pow10Monotone(a: nat, b: nat)
    requires a <= b
    ensures Pow10(a) <= Pow10(b)
    decreases b
  {
    if a < b {
      Pow10Monotone(a, b - 1);
    }
  }

  /** Signed decimal: a '-' before the magnitude of a negative number. */
  function FromInt(i: int): (s: seq<char>)
    ensures |s| >= 1
    ensures i >= 0 ==> s == FromNat(i)
    ensures i < 0 ==> s[0] == '-' && s[1..] == FromNat(-i)
  {
    if i < 0 then "-" + FromNat(-i) else FromNat(i)
  }

  /** Parses an optional '-' followed by a non-empty run of digits. */
  function ParseInt(s: seq<char>): (r: Option<int>)
    ensures r.Some? && r.value < 0 ==> |s| >= 2 && s[0] == '-'
  {
    if |s| >= 1 && s[0] == '-' then
      match ParseNat(s[1..])
      case Some(n) => Some(-(n as int))
      case None => None
    else
      match ParseNat(s)
      case Some(n) => Some(n)
      case None => None
  }

  /** Round trip for signed values. */
  lemma ParseFromInt(i: int)
    ensures ParseInt(FromInt(i)) == Some(i)
  {
    if i < 0 {
      ParseFromNat(-i);
      assert FromInt(i)[1..] == FromNat(-i);
    } else {
      ParseFromNat(i);
    }
  }
}

=== FILE: example_texts.dfy ===
/**
  The expected outputs of the Responder test cases, line by line: each
  lemma says which short pieces (status code, reason, `name=value`,
  attribute) spell one line or one attribute of an expected response.
 */
module ExampleTexts {
  lemma FirstPair()
    ensures "First" + "=" + "One" == "First=One"
  {
  }

  lemma ContinueText()
    ensures "HTTP/1.1 " + "100" + " " + "Continue" + "\r\n" == "HTTP/1.1 100 Continue\r\n"
  {
  }

  lemma OkText()
    ensures "HTTP/1.1 " + "200" + " " + "OK" + "\r\n" == "HTTP/1.1 200 OK\r\n"
  {
  }

  lemma NotFoundText()
    ensures "HTTP/1.1 " + "404" + " " + "Not Found" + "\r\n" == "HTTP/1.1 404 Not Found\r\n"
  {
  }

  lemma BadGatewayText()
    ensures "HTTP/1.1 " + "502" + " " + "Bad Gateway" + "\r\n" == "HTTP/1.1 502 Bad Gateway\r\n"
  {
  }

  lemma SecondPair()
    ensures "Second" + "=" + "Two" == "Second=Two"
  {
  }

  lemma CookieLines()
    ensures "Set-Cookie: " + "First=One" + "\r\n" == "Set-Cookie: First=One\r\n"
    ensures "Set-Cookie: " + "Second=Two" + "\r\n" == "Set-Cookie: Second=Two\r\n"
  {
  }

  lemma SimpleOptionsTexts()
    ensures "; " + "Domain=" + "example.com" == "; Domain=example.com"
    ensures "; " + "Path=" + "/some/path" == "; Path=/some/path"
    ensures "; " + "Max-Age=600" == "; Max-Age=600"
  {
  }

  lemma ExpiresKeyword()
    ensures "; " + "Expires=" == "; Expires="
  {
  }

  lemma FlagsTexts()
    ensures "; " + "HttpOnly" == "; HttpOnly" && "; " + "Secure" == "; Secure"
  {
  }

  lemma DateText()
    ensures "Tue" + ", " + "15" + " " + "Jan" + " " + "2013" + " " + "21" + ":" + "47" + ":" + "38" + " GMT"
      == "Tue, 15 Jan 2013 21:47:38 GMT"
  {
  }
}

=== FILE: http_date.dfy ===
/**
  IMF-fixdate, the preferred HTTP-date format of section 7.1.1.1 of
  RFC 7231 ("Tue, 15 Jan 2013 21:47:38 GMT"), which the cookie encoder
  uses for the Expires attribute; and a strict parser for it, against
  which the formatter is proved.
 */
module HttpDate {
  import opened Wrappers
  import opened Decimal
  import opened CivilTime

  const DayNames: seq<seq<char>> := ["Sun", "Mon", "Tue", "Wed", "Thu", "Fri", "Sat"]

  const MonthNames: seq<seq<char>> :=
    ["Jan", "Feb", "Mar", "Apr", "May", "Jun", "Jul", "Aug", "Sep", "Oct", "Nov", "Dec"]

  /** Position of `x` in `names`, if it is there. */
  function IndexOf(names: seq<seq<char>>, x: seq<char>): (r: Option<nat>)
    ensures r.Some? ==> r.value < |names| && names[r.value] == x
    ensures r.None? ==> x !in names
  {
    if |names| == 0 then None
    else if names[0] == x then Some(0)
    else match IndexOf(names[1..], x)
      case Some(i) => Some(i + 1)
      case None => None
  }

  /** Names that occur once each are found at their own position. */
  lemma {:induction false} IndexOfDistinct(names: seq<seq<char>>, i: nat)
    requires i < |names|
    requires forall a, b :: 0 <= a < b < |names| ==> names[a] != names[b]
    ensures IndexOf(names, names[i]) == Some(i)
    decreases |names|
  {
    if i > 0 {
      assert names[1..][i - 1] == names[i];
      IndexOfDistinct(names[1..], i - 1);
    }
  }

  /** The year with at least four digits; a year before 1 BC gets a leading '-'. */
  function YearText(y: int): (s: seq<char>)
    ensures 0 <= y <= 9999 ==> |s| == 4 && AllDigits(s) && ToNat(s) == y
    ensures forall i :: 0 <= i < |s| ==> IsDigit(s[i]) || s[i] == '-'
  {
    assert Pow10(4) == 10000;
    if y < 0 then "-" + Fixed(-y, 4) else Fixed(y, 4)
  }

  lemma NameLengths()
    ensures forall i :: 0 <= i < |DayNames| ==> |DayNames[i]| == 3
    ensures forall i :: 0 <= i < |MonthNames| ==> |MonthNames[i]| == 3
  {
  }

  /** Renders a broken-down time as `Www, DD Mon YYYY HH:MM:SS GMT`. */
  function FormatUtc(u: UtcTime): (s: seq<char>)
    requires Valid(u)
  {
    Assemble(DayNames[u.weekday], Fixed(u.day, 2), MonthNames[u.month - 1], YearText(u.year),
             Fixed(u.hour, 2), Fixed(u.minute, 2), Fixed(u.second, 2))
  }

  /** The IMF-fixdate of an instant given in seconds since the epoch, always in UTC. */
  function Format(t: int): (s: seq<char>)
  {
    FromEpochValid(t);
    FormatUtc(FromEpoch(t))
  }

  /** The characters an IMF-fixdate is written with. */
  predicate IsDateChar(c: char) {
    'A' <= c <= 'Z' || 'a' <= c <= 'z' || '0' <= c <= '9' || c == ' ' || c == ',' || c == ':' || c == '-'
  }

  predicate IsDateText(s: seq<char>) {
    forall i :: 0 <= i < |s| ==> IsDateChar(s[i])
  }

  lemma DateTextAppend(a: seq<char>, b: seq<char>)
    requires IsDateText(a) && IsDateText(b)
    ensures IsDateText(a + b)
  {
  }

  lemma NamesAreDateText()
    ensures forall i :: 0 <= i < |DayNames| ==> IsDateText(DayNames[i])
    ensures forall i :: 0 <= i < |MonthNames| ==> IsDateText(MonthNames[i])
  {
  }

  /**
    An IMF-fixdate is written with letters, digits, space, ',', ':' and '-'
    only; in particular it holds no ';' to end a cookie attribute early and
    no CR to end a header line.
   */
  lemma FormatIsDateText(t: int)
    ensures IsDateText(Format(t))
  {
    FromEpochValid(t);
    var u := FromEpoch(t);
    NamesAreDateText();
    DigitsAreDateText(Fixed(u.day, 2));
    DigitsAreDateText(Fixed(u.hour, 2));
    DigitsAreDateText(Fixed(u.minute, 2));
    DigitsAreDateText(Fixed(u.second, 2));
    AssembleIsDateText(DayNames[u.weekday], Fixed(u.day, 2), MonthNames[u.month - 1], YearText(u.year),
                       Fixed(u.hour, 2), Fixed(u.minute, 2), Fixed(u.second, 2));
  }

  lemma DigitsAreDateText(s: seq<char>)
    requires AllDigits(s)
    ensures IsDateText(s)
  {
  }

  /** The layout adds only date characters to its fields. */
  lemma AssembleIsDateText(wd: seq<char>, day: seq<char>, mon: seq<char>, year: seq<char>,
                           hh: seq<char>, mm: seq<char>, ss: seq<char>)
    requires IsDateText(wd) && IsDateText(day) && IsDateText(mon) && IsDateText(year)
    requires IsDateText(hh) && IsDateText(mm) && IsDateText(ss)
    ensures IsDateText(Assemble(wd, day, mon, year, hh, mm, ss))
  {
    var s6 := ":" + (ss + " GMT");
    var s5 := ":" + (mm + s6);
    var s4 := " " + (hh + s5);
    var s3 := " " + (year + s4);
    var s2 := " " + (mon + s3);
    var s1 := ", " + (day + s2);
    DateTextAppend(ss, " GMT");
    DateTextAppend(":", ss + " GMT");
    DateTextAppend(mm, s6);
    DateTextAppend(":", mm + s6);
    DateTextAppend(hh, s5);
    DateTextAppend(" ", hh + s5);
    DateTextAppend(year, s4);
    DateTextAppend(" ", year + s4);
    DateTextAppend(mon, s3);
    DateTextAppend(" ", mon + s3);
    DateTextAppend(day, s2);
    DateTextAppend(", ", day + s2);
    DateTextAppend(wd, s1);
  }

  /** A character outside the date alphabet never appears in an IMF-fixdate. */
  lemma FormatAvoids(t: int, c: char)
    requires !IsDateChar(c)
    ensures c !in Format(t)
  {
    FormatIsDateText(t);
    DateTextAvoids(Format(t), c);
  }

  lemma DateTextAvoids(s: seq<char>, c: char)
    requires IsDateText(s) && !IsDateChar(c)
    ensures c !in s
  {
  }

  /** Consumes the literal `lit` at the front of `s`. */
  function Literal(s: seq<char>, lit: seq<char>): (r: Option<seq<char>>)
    ensures r.Some? <==> lit <= s
    ensures r.Some? ==> s == lit + r.value
  {
    if lit <= s then Some(s[|lit|..]) else None
  }

  /** Consumes a three-letter name from `names` at the front of `s`, giving its position. */
  function Name(s: seq<char>, names: seq<seq<char>>): (r: Option<(nat, seq<char>)>)
    ensures r.Some? ==> r.value.0 < |names| && s == names[r.value.0] + r.value.1
  {
    if |s| < 3 then None
    else match IndexOf(names, s[..3])
      case Some(i) => Some((i, s[3..]))
      case None => None
  }

  /** Consumes exactly `width` digits at the front of `s`, giving their value. */
  function Number(s: seq<char>, width: nat): (r: Option<(nat, seq<char>)>)
    requires width >= 1
    ensures r.Some? <==> width <= |s| && AllDigits(s[..width])
    ensures r.Some? ==> s[width..] == r.value.1 && r.value.0 == ToNat(s[..width])
  {
    if width <= |s| && AllDigits(s[..width]) then Some((ToNat(s[..width]), s[width..])) else None
  }

  /** Reads `HH:MM:SS GMT` to the end of `s`. */
  function ParseClock(s: seq<char>): Option<(nat, nat, nat)> {
    var hh :- Number(s, 2);
    var s1 :- Literal(hh.1, ":");
    var mm :- Number(s1, 2);
    var s2 :- Literal(mm.1, ":");
    var ss :- Number(s2, 2);
    var rest :- Literal(ss.1, " GMT");
    if rest == [] then Some((hh.0, mm.0, ss.0)) else None
  }

  /** Reads `Www, DD ` at the front of `s`: weekday, day of the month and what follows. */
  function ParseWeekdayDay(s: seq<char>): Option<(nat, nat, seq<char>)> {
    var wd :- Name(s, DayNames);
    var s1 :- Literal(wd.1, ", ");
    var day :- Number(s1, 2);
    var s2 :- Literal(day.1, " ");
    Some((wd.0, day.0, s2))
  }

  /** Reads `Mon YYYY ` at the front of `s`: month (January = 1), year and what follows. */
  function ParseMonthYear(s: seq<char>): Option<(nat, nat, seq<char>)> {
    var mon :- Name(s, MonthNames);
    var s1 :- Literal(mon.1, " ");
    var year :- Number(s1, 4);
    var s2 :- Literal(year.1, " ");
    Some((mon.0 + 1, year.0, s2))
  }

  /** Reads `Www, DD Mon YYYY ` at the front of `s`: weekday, day, month, year and what follows. */
  function ParseCalendar(s: seq<char>): Option<(nat, nat, nat, nat, seq<char>)> {
    var wd :- ParseWeekdayDay(s);
    var my :- ParseMonthYear(wd.2);
    Some((wd.0, wd.1, my.0, my.1, my.2))
  }

  /**
    Parses an IMF-fixdate with a four-digit year back to seconds since the
    epoch. Every field must be in range and the day name must be the
    weekday of the date; anything else is rejected.
   */
  function Parse(s: seq<char>): Option<int> {
    var cal :- ParseCalendar(s);
    var clock :- ParseClock(cal.4);
    var u := UtcTime(cal.3, cal.2, cal.1, clock.0, clock.1, clock.2, cal.0);
    if Valid(u) then Some(ToEpoch(u)) else None
  }

  /** The fixed layout of an IMF-fixdate, whatever the field texts of the right widths are. */
  function Assemble(wd: seq<char>, day: seq<char>, mon: seq<char>, year: seq<char>,
                    hh: seq<char>, mm: seq<char>, ss: seq<char>): seq<char>
  {
    wd + (", " + (day + (" " + (mon + (" " + (year + (" " +
    (hh + (":" + (mm + (":" + (ss + " GMT"))))))))))))
  }

  lemma ParseClockOf(hh: nat, mm: nat, ss: nat)
    requires hh < 100 && mm < 100 && ss < 100
    ensures ParseClock(Fixed(hh, 2) + (":" + (Fixed(mm, 2) + (":" + (Fixed(ss, 2) + " GMT")))))
            == Some((hh, mm, ss))
  {
    var tail := " GMT";
    var s2 := ":" + (Fixed(ss, 2) + tail);
    var s1 := ":" + (Fixed(mm, 2) + s2);
    assert Number(Fixed(hh, 2) + s1, 2) == Some((hh, s1));
    assert Literal(s1, ":") == Some(Fixed(mm, 2) + s2);
    assert Number(Fixed(mm, 2) + s2, 2) == Some((mm, s2));
    assert Literal(s2, ":") == Some(Fixed(ss, 2) + tail);
    assert Number(Fixed(ss, 2) + tail, 2) == Some((ss, tail));
    assert Literal(tail, " GMT") == Some([]);
  }

  /** Day names are told apart by their spelling. */
  lemma DayNameIndex(w: nat)
    requires w < 7
    ensures IndexOf(DayNames, DayNames[w]) == Some(w)
  {
    IndexOfDistinct(DayNames, w);
  }

  /** Month names are told apart by their spelling. */
  lemma MonthNameIndex(m: nat)
    requires m < 12
    ensures IndexOf(MonthNames, MonthNames[m]) == Some(m)
  {
    IndexOfDistinct(MonthNames, m);
  }

  lemma ParseWeekdayDayOf(w: nat, d: nat, rest: seq<char>)
    requires w < 7 && d < 100
    ensures ParseWeekdayDay(DayNames[w] + (", " + (Fixed(d, 2) + (" " + rest)))) == Some((w, d, rest))
  {
    NameLengths();
    var s2 := " " + rest;
    var s1 := ", " + (Fixed(d, 2) + s2);
    DayNameIndex(w);
    assert Name(DayNames[w] + s1, DayNames) == Some((w, s1));
    assert Literal(s1, ", ") == Some(Fixed(d, 2) + s2);
    assert Number(Fixed(d, 2) + s2, 2) == Some((d, s2));
    assert Literal(s2, " ") == Some(rest);
  }

  lemma ParseMonthYearOf(m: nat, y: nat, rest: seq<char>)
    requires 1 <= m <= 12 && y < 10000
    ensures ParseMonthYear(MonthNames[m - 1] + (" " + (YearText(y) + (" " + rest)))) == Some((m, y, rest))
  {
    NameLengths();
    var s2 := " " + rest;
    var s1 := " " + (YearText(y) + s2);
    MonthNameIndex(m - 1);
    assert Name(MonthNames[m - 1] + s1, MonthNames) == Some((m - 1, s1));
    assert Literal(s1, " ") == Some(YearText(y) + s2);
    assert Number(YearText(y) + s2, 4) == Some((y, s2));
    assert Literal(s2, " ") == Some(rest);
  }

  /** Formatting then parsing gives back the instant, for years 0 to 9999. */
  lemma ParseFormatUtc(u: UtcTime)
    requires Valid(u) && 0 <= u.year <= 9999
    ensures Parse(FormatUtc(u)) == Some(ToEpoch(u))
  {
    var clock := Fixed(u.hour, 2) + (":" + (Fixed(u.minute, 2) + (":" + (Fixed(u.second, 2) + " GMT"))));
    var monthYear := MonthNames[u.month - 1] + (" " + (YearText(u.year) + (" " + clock)));
    ParseWeekdayDayOf(u.weekday, u.day, monthYear);
    ParseMonthYearOf(u.month, u.year, clock);
    ParseClockOf(u.hour, u.minute, u.second);
  }

  lemma ParseClockShape(s: seq<char>)
    requires ParseClock(s).Some?
    ensures var (hh, mm, ss) := ParseClock(s).value;
      hh < 100 && mm < 100 && ss < 100
      && s == Fixed(hh, 2) + (":" + (Fixed(mm, 2) + (":" + (Fixed(ss, 2) + " GMT"))))
  {
    var (hh, r0) := Number(s, 2).value;
    var s1 := Literal(r0, ":").value;
    var (mm, r1) := Number(s1, 2).value;
    var s2 := Literal(r1, ":").value;
    var (ss, r2) := Number(s2, 2).value;
    assert Literal(r2, " GMT") == Some([]);
    assert ParseClock(s).value == (hh, mm, ss);
    DigitField(s, 2);
    DigitField(s1, 2);
    DigitField(s2, 2);
    AppendEmpty(" GMT");
    assert r2 == " GMT";
  }

  /** Appending nothing leaves a sequence as it was. */
  lemma AppendEmpty<T>(a: seq<T>)
    ensures a + [] == a
  {
  }

  lemma ParseWeekdayDayShape(s: seq<char>)
    requires ParseWeekdayDay(s).Some?
    ensures var (w, d, rest) := ParseWeekdayDay(s).value;
      w < 7 && d < 100 && s == DayNames[w] + (", " + (Fixed(d, 2) + (" " + rest)))
  {
    var wd := Name(s, DayNames).value;
    var s1 := Literal(wd.1, ", ").value;
    DigitField(s1, 2);
  }

  lemma ParseMonthYearShape(s: seq<char>)
    requires ParseMonthYear(s).Some?
    ensures var (m, y, rest) := ParseMonthYear(s).value;
      1 <= m <= 12 && y < 10000 && s == MonthNames[m - 1] + (" " + (YearText(y) + (" " + rest)))
  {
    var mon := Name(s, MonthNames).value;
    var s1 := Literal(mon.1, " ").value;
    DigitField(s1, 4);
  }

  /** A run of `width` digits at the front of `s` is the zero-padded rendering of its value. */
  lemma DigitField(s: seq<char>, width: nat)
    requires width >= 1 && Number(s, width).Some?
    ensures var (n, rest) := Number(s, width).value;
      n < Pow10(width) && s == Fixed(n, width) + rest
  {
    var digits := s[..width];
    FixedOfDigits(digits);
    ToNatBound(digits);
    assert s == digits + s[width..];
  }

  /**
    The other round trip: a text `Parse` accepts is exactly the IMF-fixdate
    of the instant it denotes, so the format has one spelling per instant.
   */
  lemma FormatParse(s: seq<char>)
    requires Parse(s).Some?
    ensures Format(Parse(s).value) == s
  {
    var cal := ParseCalendar(s).value;
    var wd := ParseWeekdayDay(s).value;
    var my := ParseMonthYear(wd.2).value;
    var clock := ParseClock(cal.4).value;
    ParseWeekdayDayShape(s);
    ParseMonthYearShape(wd.2);
    ParseClockShape(cal.4);
    var u := UtcTime(cal.3, cal.2, cal.1, clock.0, clock.1, clock.2, cal.0);
    FromEpochToEpoch(u);
  }

  /** Round trip for instants: the IMF-fixdate of `t` parses back to `t`. */
  lemma ParseFormat(t: int)
    requires 0 <= FromEpoch(t).year <= 9999
    ensures Parse(Format(t)) == Some(t)
  {
    FromEpochValid(t);
    ParseFormatUtc(FromEpoch(t));
  }
}

=== FILE: responder.dfy ===
/**
  The response serializer: the state a responder accumulates through
  SetField, SetBody and SetCookie, and what Send writes to the output
  stream for a status. The stream is modelled as the text written so far;
  every write is taken whole, as the in-memory stream of the tests takes it.
 */
module Responder {
  import opened Wrappers
  import opened Text
  import Decimal
  import Status
  import Cookie

  /** One header field, name and value as the caller gave them. */
  datatype Field = Field(name: seq<char>, value: seq<char>)

  /** One SetCookie call. */
  datatype CookieDirective = CookieDirective(name: seq<char>, value: seq<char>, options: Cookie.CookieOptions)

  /** What a responder holds before Send: header fields in order, an optional body, cookies in order. */
  datatype Responder = Responder(
    fields: seq<Field>,
    body: Option<seq<char>>,
    cookies: seq<CookieDirective>)

  /** A freshly constructed responder. */
  const Fresh: Responder := Responder([], None, [])

  function Names(fields: seq<Field>): (names: seq<seq<char>>)
    ensures |names| == |fields| && forall i :: 0 <= i < |fields| ==> names[i] == fields[i].name
  {
    if |fields| == 0 then [] else [fields[0].name] + Names(fields[1..])
  }

  /** The value of the first field called `name`. */
  function Lookup(fields: seq<Field>, name: seq<char>): (r: Option<seq<char>>)
    ensures r.None? <==> name !in Names(fields)
  {
    if |fields| == 0 then None
    else if fields[0].name == name then Some(fields[0].value)
    else Lookup(fields[1..], name)
  }

  predicate DistinctNames(fields: seq<Field>) {
    forall i, j :: 0 <= i < j < |fields| ==> fields[i].name != fields[j].name
  }

  /**
    Sets field `name` to `value`: a field already called `name` keeps its
    place and takes the new value, otherwise the field goes at the end.
   */
  function Upsert(fields: seq<Field>, name: seq<char>, value: seq<char>): (r: seq<Field>)
    ensures name in Names(fields) ==> Names(r) == Names(fields)
    ensures name !in Names(fields) ==> r == fields + [Field(name, value)]
  {
    if |fields| == 0 then [Field(name, value)]
    else if fields[0].name == name then [Field(name, value)] + fields[1..]
    else [fields[0]] + Upsert(fields[1..], name, value)
  }

  /** After an upsert the field reads `value`, and every other field reads as before. */
  lemma {:induction false} UpsertLookup(fields: seq<Field>, name: seq<char>, value: seq<char>, other: seq<char>)
    ensures Lookup(Upsert(fields, name, value), name) == Some(value)
    ensures other != name ==> Lookup(Upsert(fields, name, value), other) == Lookup(fields, other)
    decreases |fields|
  {
    if |fields| > 0 && fields[0].name != name {
      UpsertLookup(fields[1..], name, value, other);
      assert Upsert(fields, name, value)[1..] == Upsert(fields[1..], name, value);
    }
  }

  /** Upserting keeps field names distinct. */
  lemma UpsertDistinct(fields: seq<Field>, name: seq<char>, value: seq<char>)
    requires DistinctNames(fields)
    ensures DistinctNames(Upsert(fields, name, value))
  {
    var r := Upsert(fields, name, value);
    if name in Names(fields) {
      assert forall i :: 0 <= i < |r| ==> r[i].name == Names(r)[i] == Names(fields)[i];
    } else {
      assert forall i :: 0 <= i < |fields| ==> fields[i].name == Names(fields)[i];
    }
  }

  /** SetField: later calls with the same name overwrite, in the place of the first. */
  function SetField(r: Responder, name: seq<char>, value: seq<char>): Responder {
    r.(fields := Upsert(r.fields, name, value))
  }

  /** SetBody: stores the body; Content-Length is derived from it at Send time. */
  function SetBody(r: Responder, body: seq<char>): Responder {
    r.(body := Some(body))
  }

  /** SetCookie: appends a cookie; it never touches the fields or other cookies. */
  function SetCookie(r: Responder, name: seq<char>, value: seq<char>,
                     options: Cookie.CookieOptions := Cookie.Defaults): Responder
  {
    r.(cookies := r.cookies + [CookieDirective(name, value, options)])
  }

  const ContentLength: seq<char> := "Content-Length"
  const SetCookieName: seq<char> := "Set-Cookie"

  /** The caller's fields with Content-Length set from the body, when there is one. */
  function FieldsWithLength(r: Responder): seq<Field> {
    match r.body
    case None => r.fields
    case Some(b) => Upsert(r.fields, ContentLength, Decimal.FromNat(|b|))
  }

  /** The Set-Cookie field of one cookie. */
  function CookieField(c: CookieDirective): Field {
    Field(SetCookieName, Cookie.Encode(c.name, c.value, c.options))
  }

  /** One Set-Cookie field per cookie, in SetCookie order. */
  function CookieFields(cookies: seq<CookieDirective>): (fs: seq<Field>)
    ensures |fs| == |cookies|
  {
    if |cookies| == 0 then [] else [CookieField(cookies[0])] + CookieFields(cookies[1..])
  }

  /** The `i`-th Set-Cookie field is the field of the `i`-th cookie. */
  lemma {:induction false} CookieFieldsIndex(cookies: seq<CookieDirective>, i: nat)
    requires i < |cookies|
    ensures CookieFields(cookies)[i] == CookieField(cookies[i])
    decreases |cookies|
  {
    assert CookieFields(cookies) == [CookieField(cookies[0])] + CookieFields(cookies[1..]);
    if i > 0 {
      CookieFieldsIndex(cookies[1..], i - 1);
      assert cookies[1..][i - 1] == cookies[i];
    }
  }

  /** Every header field Send writes, in the order it writes them. */
  function WireFields(r: Responder): seq<Field> {
    FieldsWithLength(r) + CookieFields(r.cookies)
  }

  /** `Name: Value`, without its CRLF. */
  function FieldLine(f: Field): seq<char> {
    f.name + ": " + f.value
  }

  function FieldLines(fields: seq<Field>): (lines: seq<seq<char>>)
    ensures |lines| == |fields| && forall i :: 0 <= i < |fields| ==> lines[i] == FieldLine(fields[i])
  {
    if |fields| == 0 then [] else [FieldLine(fields[0])] + FieldLines(fields[1..])
  }

  /** A response as it travels: status, header fields in order, body. */
  datatype Message = Message(status: Status.Status, fields: seq<Field>, body: seq<char>)

  /**
    A message on the wire: status line, one line per field, the empty line
    that ends the header, then the body exactly as given.
   */
  function Render(m: Message): seq<char> {
    Status.StatusLine(m.status) + Terminated(FieldLines(m.fields)) + CRLF + m.body
  }

  /** The message a responder sends for a status. */
  function Outgoing(r: Responder, status: Status.Status): Message {
    Message(status, WireFields(r), r.body.GetOr([]))
  }

  /** The whole response Send writes. */
  function Serialize(r: Responder, status: Status.Status): seq<char> {
    Render(Outgoing(r, status))
  }

  /** Writes one line per field, each followed by CRLF, after what `sink` holds. */
  method WriteFieldLines(fields: seq<Field>, sink: seq<char>) returns (out: seq<char>)
    ensures out == sink + Terminated(FieldLines(fields))
  {
    var lines := FieldLines(fields);
    out := sink;
    var i := 0;
    while i < |fields|
      invariant 0 <= i <= |fields|
      invariant out == sink + Terminated(lines[..i])
    {
      TerminatedSnoc(lines[..i], lines[i]);
      assert lines[..i + 1] == lines[..i] + [lines[i]];
      out := out + FieldLine(fields[i]) + CRLF;
      i := i + 1;
    }
    assert lines[..i] == lines;
  }

  /**
    Send as a sequence of writes to the stream: the status line, each field
    line, the empty line, the body. `sink` is what the stream held before.
   */
  method Send(r: Responder, status: Status.Status, sink: seq<char>) returns (out: seq<char>)
    ensures out == sink + Serialize(r, status)
  {
    var statusLine := Status.StatusLine(status);
    out := sink + statusLine;
    out := WriteFieldLines(WireFields(r), out);
    ghost var header := Terminated(FieldLines(WireFields(r)));
    Append3(sink, statusLine, header);
    out := out + CRLF;
    Append3(sink, statusLine + header, CRLF);
    var body := r.body.GetOr([]);
    out := out + body;
    Append3(sink, statusLine + header + CRLF, body);
  }

  /** Reads `Name: Value` back: the name ends at the first ':', and a space follows it. */
  function ParseFieldLine(line: seq<char>): (r: Option<Field>)
    ensures r.Some? ==> FieldLine(r.value) == line && ':' !in r.value.name
  {
    var i := Find(line, ':');
    if i + 1 < |line| && line[i + 1] == ' ' then
      assert line == line[..i] + ": " + line[i + 2..];
      Some(Field(line[..i], line[i + 2..]))
    else None
  }

  function ParseFieldLines(lines: seq<seq<char>>): (r: Option<seq<Field>>)
    ensures r.Some? ==> FieldLines(r.value) == lines
  {
    if |lines| == 0 then Some([])
    else
      var f :- ParseFieldLine(lines[0]);
      var fs :- ParseFieldLines(lines[1..]);
      assert [lines[0]] + lines[1..] == lines;
      Some([f] + fs)
  }

  /**
    Reads a whole response: the status line, the header lines up to the
    empty line, and everything after it as the body.
   */
  function ParseResponse(s: seq<char>): (r: Option<Message>)
    ensures r.Some? ==> Render(r.value) == s
  {
    var (text, rest) :- ReadLine(s);
    var status :- Status.ParseStatusText(text);
    var (lines, body) :- ReadBlock(rest);
    var fields :- ParseFieldLines(lines);
    Append3(Status.StatusText(status), CRLF, rest);
    Some(Message(status, fields, body))
  }

  /** A field that reads back from its line: no ':' in the name, no CR anywhere. */
  predicate FieldReadable(f: Field) {
    ':' !in f.name && '\r' !in f.name && '\r' !in f.value
  }

  predicate AllReadable(fields: seq<Field>) {
    forall k :: 0 <= k < |fields| ==> FieldReadable(fields[k])
  }

  lemma ParseFieldLineOf(f: Field)
    requires FieldReadable(f)
    ensures ParseFieldLine(FieldLine(f)) == Some(f)
  {
    var line := FieldLine(f);
    assert line == f.name + [':'] + ([' '] + f.value);
    FindFirst(f.name, ':', [' '] + f.value);
    assert line[..|f.name|] == f.name;
    assert line[|f.name| + 2..] == f.value;
  }

  lemma {:induction false} ParseFieldLinesOf(fields: seq<Field>)
    requires AllReadable(fields)
    ensures ParseFieldLines(FieldLines(fields)) == Some(fields)
    decreases |fields|
  {
    if |fields| > 0 {
      var lines := FieldLines(fields);
      assert FieldReadable(fields[0]);
      ParseFieldLineOf(fields[0]);
      assert AllReadable(fields[1..]) by {
        forall k | 0 <= k < |fields[1..]|
          ensures FieldReadable(fields[1..][k])
        {
          assert fields[1..][k] == fields[k + 1];
        }
      }
      ParseFieldLinesOf(fields[1..]);
      assert lines[0] == FieldLine(fields[0]) && lines[1..] == FieldLines(fields[1..]);
      assert [fields[0]] + fields[1..] == fields;
    }
  }

  /** Every message whose fields are readable renders to text that reads back as the same message. */
  lemma ParseRender(m: Message)
    requires AllReadable(m.fields)
    ensures ParseResponse(Render(m)) == Some(m)
  {
    var text := Status.StatusText(m.status);
    var lines := FieldLines(m.fields);
    var rest := Terminated(lines) + CRLF + m.body;
    assert Render(m) == text + CRLF + rest;
    ReadLineOf(text, rest);
    Status.ParseStatusTextOf(m.status);
    forall k | 0 <= k < |lines|
      ensures |lines[k]| >= 1 && '\r' !in lines[k]
    {
      assert lines[k] == m.fields[k].name + ": " + m.fields[k].value;
    }
    ReadBlockOf(lines, m.body);
    ParseFieldLinesOf(m.fields);
  }

  /** A cookie whose Set-Cookie value stays on one line and reads back. */
  predicate CookieReadable(c: CookieDirective) {
    && '\r' !in c.name && '\r' !in c.value
    && (c.options.domain.Some? ==> '\r' !in c.options.domain.value)
    && (c.options.path.Some? ==> '\r' !in c.options.path.value)
  }

  /**
    What a caller must keep out of a responder for the response to read
    back: no ':' in field names, no CR in any name, value, domain or path.
   */
  predicate Readable(r: Responder) {
    && AllReadable(r.fields)
    && (forall k :: 0 <= k < |r.cookies| ==> CookieReadable(r.cookies[k]))
  }

  /** Every field of an upsert is an old field or the new one. */
  lemma {:induction false} UpsertFrom(fields: seq<Field>, name: seq<char>, value: seq<char>)
    ensures forall f :: f in Upsert(fields, name, value) ==> f in fields || f == Field(name, value)
    decreases |fields|
  {
    if |fields| > 0 && fields[0].name != name {
      UpsertFrom(fields[1..], name, value);
    }
  }

  lemma LengthFieldReadable(n: nat)
    ensures FieldReadable(Field(ContentLength, Decimal.FromNat(n)))
  {
    var len := Decimal.FromNat(n);
    assert forall j :: 0 <= j < |len| ==> Decimal.IsDigit(len[j]);
  }

  lemma FieldsWithLengthReadable(r: Responder)
    requires AllReadable(r.fields)
    ensures AllReadable(FieldsWithLength(r))
  {
    if r.body.Some? {
      var len := Decimal.FromNat(|r.body.value|);
      var own := Upsert(r.fields, ContentLength, len);
      UpsertFrom(r.fields, ContentLength, len);
      LengthFieldReadable(|r.body.value|);
      forall k | 0 <= k < |own|
        ensures FieldReadable(own[k])
      {
        assert own[k] in own;
        if own[k] in r.fields {
          var j :| 0 <= j < |r.fields| && r.fields[j] == own[k];
        }
      }
    }
  }

  lemma CookieFieldReadable(c: CookieDirective)
    requires CookieReadable(c)
    ensures FieldReadable(CookieField(c))
  {
    Cookie.EncodeAvoids(c.name, c.value, c.options, '\r');
    SetCookieFieldReadable(Cookie.Encode(c.name, c.value, c.options));
  }

  lemma SetCookieFieldReadable(value: seq<char>)
    requires '\r' !in value
    ensures FieldReadable(Field(SetCookieName, value))
  {
    assert SetCookieName == "Set-Cookie";
  }

  lemma {:induction false} CookieFieldsReadable(cookies: seq<CookieDirective>)
    requires forall k :: 0 <= k < |cookies| ==> CookieReadable(cookies[k])
    ensures AllReadable(CookieFields(cookies))
    decreases |cookies|
  {
    if |cookies| > 0 {
      var rest := cookies[1..];
      assert forall k :: 0 <= k < |rest| ==> CookieReadable(rest[k]) by {
        forall k | 0 <= k < |rest| ensures CookieReadable(rest[k]) {
          assert rest[k] == cookies[k + 1];
        }
      }
      CookieFieldsReadable(rest);
      CookieFieldReadable(cookies[0]);
      AllReadableCons(CookieField(cookies[0]), CookieFields(rest));
    }
  }

  lemma AllReadableCons(f: Field, fields: seq<Field>)
    requires FieldReadable(f) && AllReadable(fields)
    ensures AllReadable([f] + fields)
  {
    assert forall k :: 0 < k < |[f] + fields| ==> ([f] + fields)[k] == fields[k - 1];
  }

  lemma AllReadableAppend(a: seq<Field>, b: seq<Field>)
    requires AllReadable(a) && AllReadable(b)
    ensures AllReadable(a + b)
  {
    assert forall k :: 0 <= k < |a + b| ==> (a + b)[k] == if k < |a| then a[k] else b[k - |a|];
  }

  lemma WireFieldsReadable(r: Responder)
    requires Readable(r)
    ensures AllReadable(WireFields(r))
  {
    FieldsWithLengthReadable(r);
    CookieFieldsReadable(r.cookies);
    AllReadableAppend(FieldsWithLength(r), CookieFields(r.cookies));
  }

  /**
    The response Send writes for a readable responder reads back as the
    status, the wire fields in order and the body byte for byte.
   */
  lemma ParseSerialize(r: Responder, status: Status.Status)
    requires Readable(r)
    ensures ParseResponse(Serialize(r, status)) == Some(Message(status, WireFields(r), r.body.GetOr([])))
  {
    WireFieldsReadable(r);
    ParseRender(Outgoing(r, status));
  }

  /** The first field with a name wins a lookup over anything appended after it. */
  lemma {:induction false} LookupAppend(a: seq<Field>, b: seq<Field>, name: seq<char>)
    requires name in Names(a)
    ensures Lookup(a + b, name) == Lookup(a, name)
    decreases |a|
  {
    if a[0].name != name {
      assert (a + b)[1..] == a[1..] + b;
      assert name in Names(a[1..]);
      LookupAppend(a[1..], b, name);
    }
  }

  /**
    With a body, the wire fields carry Content-Length, its value is the
    decimal byte count of the body, and it reads back as that count.
   */
  lemma ContentLengthOfBody(r: Responder)
    requires r.body.Some?
    ensures Lookup(WireFields(r), ContentLength) == Some(Decimal.FromNat(|r.body.value|))
    ensures Decimal.ParseNat(Lookup(WireFields(r), ContentLength).value) == Some(|r.body.value|)
  {
    var len := Decimal.FromNat(|r.body.value|);
    UpsertLookup(r.fields, ContentLength, len, ContentLength);
    LookupAppend(FieldsWithLength(r), CookieFields(r.cookies), ContentLength);
    Decimal.ParseFromNat(|r.body.value|);
  }

  /** Without a body no Content-Length is added: the caller's fields go out as set, then the cookies. */
  lemma NoBodyNoLength(r: Responder)
    requires r.body.None?
    ensures WireFields(r) == r.fields + CookieFields(r.cookies)
  {
  }

  /** The body follows the empty line that ends the header, exactly as stored. */
  lemma BodyVerbatim(r: Responder, status: Status.Status, b: seq<char>)
    requires r.body == Some(b)
    ensures Serialize(r, status)[|Serialize(r, status)| - |b|..] == b
    ensures Serialize(r, status)[..|Serialize(r, status)| - |b|] == Render(Outgoing(r, status).(body := []))
  {
  }

  /** SetField once for each field, in order. */
  function SetFields(r: Responder, fields: seq<Field>): Responder
    decreases |fields|
  {
    if |fields| == 0 then r
    else
      var last := fields[|fields| - 1];
      SetField(SetFields(r, fields[..|fields| - 1]), last.name, last.value)
  }

  /** Fields with distinct names set on a fresh responder go out in call order, unchanged. */
  lemma {:induction false} SetFieldsInOrder(fields: seq<Field>)
    requires DistinctNames(fields)
    ensures SetFields(Fresh, fields).fields == fields
    decreases |fields|
  {
    if |fields| > 0 {
      DistinctInit(fields);
      SetFieldsInOrder(fields[..|fields| - 1]);
      SetFieldsStep(fields);
    }
  }

  /** The induction step: setting one more field with a new name appends it. */
  lemma SetFieldsStep(fields: seq<Field>)
    requires |fields| > 0
    requires SetFields(Fresh, fields[..|fields| - 1]).fields == fields[..|fields| - 1]
    requires fields[|fields| - 1].name !in Names(fields[..|fields| - 1])
    ensures SetFields(Fresh, fields).fields == fields
  {
    var init := fields[..|fields| - 1];
    var last := fields[|fields| - 1];
    SetFieldsLast(Fresh, fields);
    UpsertNew(init, last);
    InitLast(fields);
  }

  /** A non-empty sequence is its front followed by its last element. */
  lemma InitLast<T>(s: seq<T>)
    requires |s| > 0
    ensures s[..|s| - 1] + [s[|s| - 1]] == s
  {
  }

  /** SetFields ends with the SetField of the last field. */
  lemma SetFieldsLast(r: Responder, fields: seq<Field>)
    requires |fields| > 0
    ensures SetFields(r, fields).fields
      == Upsert(SetFields(r, fields[..|fields| - 1]).fields, fields[|fields| - 1].name, fields[|fields| - 1].value)
  {
  }

  /** A field whose name is new is appended as it is. */
  lemma UpsertNew(fields: seq<Field>, f: Field)
    requires f.name !in Names(fields)
    ensures Upsert(fields, f.name, f.value) == fields + [f]
  {
  }

  /** Dropping the last field keeps names distinct, and its name occurs nowhere before it. */
  lemma DistinctInit(fields: seq<Field>)
    requires DistinctNames(fields) && |fields| > 0
    ensures DistinctNames(fields[..|fields| - 1])
    ensures fields[|fields| - 1].name !in Names(fields[..|fields| - 1])
  {
    var init := fields[..|fields| - 1];
    forall i | 0 <= i < |init|
      ensures Names(init)[i] != fields[|fields| - 1].name
    {
      assert init[i] == fields[i];
    }
  }

  /** SetCookie adds exactly one Set-Cookie field at the end; cookies are never merged. */
  lemma SetCookieAppends(r: Responder, name: seq<char>, value: seq<char>, o: Cookie.CookieOptions)
    ensures WireFields(SetCookie(r, name, value, o))
      == WireFields(r) + [Field(SetCookieName, Cookie.Encode(name, value, o))]
  {
    var c := CookieDirective(name, value, o);
    CookieFieldsSnoc(r.cookies, c);
    assert SetCookie(r, name, value, o).cookies == r.cookies + [c];
    assert FieldsWithLength(SetCookie(r, name, value, o)) == FieldsWithLength(r);
  }

  lemma {:induction false} CookieFieldsSnoc(cookies: seq<CookieDirective>, c: CookieDirective)
    ensures CookieFields(cookies + [c]) == CookieFields(cookies) + [CookieField(c)]
    decreases |cookies|
  {
    if |cookies| > 0 {
      var all := cookies + [c];
      assert all[0] == cookies[0] && all[1..] == cookies[1..] + [c];
      CookieFieldsSnoc(cookies[1..], c);
      SnocCons(CookieField(cookies[0]), CookieFields(cookies[1..]), CookieField(c));
    } else {
      assert cookies + [c] == [c];
    }
  }

  lemma SnocCons<T>(x: T, xs: seq<T>, y: T)
    ensures [x] + (xs + [y]) == ([x] + xs) + [y]
  {
  }

  lemma Append3(a: seq<char>, b: seq<char>, c: seq<char>)
    ensures a + b + c == a + (b + c)
  {
  }
}

=== FILE: responder_examples.dfy ===
/**
  The responder's documented exchanges, each stated as the exact text Send
  writes on a fresh stream.
 */
module ResponderExamples {
  import opened Wrappers
  import opened Text
  import Decimal
  import Status
  import Cookie
  import HttpDate
  import CivilTime
  import opened Responder
  import CookieExamples
  import ExampleTexts

  /** The status line of `s`, given the decimal text of its code and its reason phrase. */
  lemma StatusLineOf(s: Status.Status, digits: seq<char>, reason: seq<char>)
    requires Decimal.FromNat(Status.Code(s)) == digits && Status.Reason(s) == reason
    ensures Status.StatusLine(s) == "HTTP/1.1 " + digits + " " + reason + "\r\n"
  {
    Status.StatusLineIsLayout(s);
    LayoutLine(Status.Code(s), digits, reason);
  }

  lemma LayoutLine(code: nat, digits: seq<char>, reason: seq<char>)
    requires Decimal.FromNat(code) == digits
    ensures Status.Layout(code, reason) + "\r\n" == "HTTP/1.1 " + digits + " " + reason + "\r\n"
  {
  }

  lemma ContinueFacts()
    ensures Status.Code(Status.Continue) == 100 && Status.Reason(Status.Continue) == "Continue"
    ensures Decimal.FromNat(100) == "100"
  {
  }

  lemma ContinueLine()
    ensures Status.StatusLine(Status.Continue) == "HTTP/1.1 100 Continue\r\n"
  {
    ContinueFacts();
    StatusLineOf(Status.Continue, "100", "Continue");
    ExampleTexts.ContinueText();
  }

  lemma OkFacts()
    ensures Status.Code(Status.Ok) == 200 && Status.Reason(Status.Ok) == "OK"
    ensures Decimal.FromNat(200) == "200"
  {
  }

  lemma OkLine()
    ensures Status.StatusLine(Status.Ok) == "HTTP/1.1 200 OK\r\n"
  {
    OkFacts();
    StatusLineOf(Status.Ok, "200", "OK");
    ExampleTexts.OkText();
  }

  lemma NotFoundFacts()
    ensures Status.Code(Status.NotFound) == 404 && Status.Reason(Status.NotFound) == "Not Found"
    ensures Decimal.FromNat(404) == "404"
  {
  }

  lemma NotFoundLine()
    ensures Status.StatusLine(Status.NotFound) == "HTTP/1.1 404 Not Found\r\n"
  {
    NotFoundFacts();
    StatusLineOf(Status.NotFound, "404", "Not Found");
    ExampleTexts.NotFoundText();
  }

  lemma BadGatewayFacts()
    ensures Status.Code(Status.BadGateway) == 502 && Status.Reason(Status.BadGateway) == "Bad Gateway"
    ensures Decimal.FromNat(502) == "502"
  {
  }

  lemma BadGatewayLine()
    ensures Status.StatusLine(Status.BadGateway) == "HTTP/1.1 502 Bad Gateway\r\n"
  {
    BadGatewayFacts();
    StatusLineOf(Status.BadGateway, "502", "Bad Gateway");
    ExampleTexts.BadGatewayText();
  }

  /** A status alone: the status line and the empty line. */
  lemma JustStatus()
    ensures Serialize(Fresh, Status.Continue) == "HTTP/1.1 100 Continue\r\n\r\n"
  {
    ContinueLine();
  }

  /** The response text of a status, one header field and a body. */
  lemma SerializeOne(r: Responder, status: Status.Status, f: Field, line: seq<char>, h: seq<char>)
    requires WireFields(r) == [f]
    requires Status.StatusLine(status) == line
    requires FieldLine(f) + CRLF == h
    ensures Serialize(r, status) == line + (h + ("\r\n" + r.body.GetOr([])))
  {
    var b := r.body.GetOr([]);
    assert FieldLines([f]) == [FieldLine(f)];
    assert Terminated([FieldLine(f)]) == FieldLine(f) + CRLF + Terminated([]);
    assert Terminated([FieldLine(f)]) == h;
    assert Serialize(r, status) == line + h + CRLF + b;
    Append3(line + h, CRLF, b);
    Append3(line, h, CRLF + b);
  }

  /** The response text of a status, two header fields and a body. */
  lemma SerializeTwo(r: Responder, status: Status.Status, f: Field, g: Field, line: seq<char>, h1: seq<char>, h2: seq<char>)
    requires WireFields(r) == [f, g]
    requires Status.StatusLine(status) == line
    requires FieldLine(f) + CRLF == h1 && FieldLine(g) + CRLF == h2
    ensures Serialize(r, status) == line + (h1 + (h2 + ("\r\n" + r.body.GetOr([]))))
  {
    var lines := FieldLines([f, g]);
    var b := r.body.GetOr([]);
    assert lines == [FieldLine(f), FieldLine(g)];
    assert lines[1..] == [FieldLine(g)];
    assert Terminated(lines[1..]) == h2 + [];
    assert Terminated(lines) == FieldLine(f) + CRLF + (h2 + []);
    Append3(FieldLine(f), CRLF, h2);
    assert Terminated(lines) == h1 + h2;
    assert Serialize(r, status) == line + (h1 + h2) + CRLF + b;
    Append3(line + (h1 + h2), CRLF, b);
    Append3(line, h1 + h2, CRLF + b);
    Append3(h1, h2, CRLF + b);
  }

  lemma SomeHeadersFields()
    ensures WireFields(SetField(SetField(Fresh, "First", "Hello world!"), "Second", "v4r!0u$ sYm80;5"))
      == [Field("First", "Hello world!"), Field("Second", "v4r!0u$ sYm80;5")]
  {
  }

  lemma SomeHeadersLines()
    ensures FieldLine(Field("First", "Hello world!")) + CRLF == "First: Hello world!\r\n"
    ensures FieldLine(Field("Second", "v4r!0u$ sYm80;5")) + CRLF == "Second: v4r!0u$ sYm80;5\r\n"
  {
  }

  /** Two fields, written in the order they were set, values untouched. */
  lemma SomeHeaders()
    ensures Serialize(SetField(SetField(Fresh, "First", "Hello world!"), "Second", "v4r!0u$ sYm80;5"), Status.Ok)
      == "HTTP/1.1 200 OK\r\n" + ("First: Hello world!\r\n" + ("Second: v4r!0u$ sYm80;5\r\n" + "\r\n"))
  {
    var r := SetField(SetField(Fresh, "First", "Hello world!"), "Second", "v4r!0u$ sYm80;5");
    SomeHeadersFields();
    SomeHeadersLines();
    OkLine();
    SerializeTwo(r, Status.Ok, Field("First", "Hello world!"), Field("Second", "v4r!0u$ sYm80;5"),
      "HTTP/1.1 200 OK\r\n", "First: Hello world!\r\n", "Second: v4r!0u$ sYm80;5\r\n");
  }

  /** A body: Content-Length counts its 12 characters and the body follows the empty line. */
  lemma HeadersAndBody()
    ensures Serialize(SetBody(Fresh, "Hello world!"), Status.BadGateway)
      == "HTTP/1.1 502 Bad Gateway\r\n" + ("Content-Length: 12\r\n" + ("\r\n" + "Hello world!"))
  {
    var r := SetBody(Fresh, "Hello world!");
    var f := Field("Content-Length", "12");
    assert |"Hello world!"| == 12;
    assert Decimal.FromNat(12) == "12";
    assert WireFields(r) == [f];
    BadGatewayLine();
    SerializeOne(r, Status.BadGateway, f, "HTTP/1.1 502 Bad Gateway\r\n", "Content-Length: 12\r\n");
  }

  /** A cookie without options is just `name=value`. */
  lemma EncodePlain(name: seq<char>, value: seq<char>)
    ensures Cookie.Encode(name, value, Cookie.Defaults) == name + "=" + value
  {
    assert Cookie.Attributes(Cookie.Defaults) == [];
  }

  lemma TwoCookies(n1: seq<char>, v1: seq<char>, n2: seq<char>, v2: seq<char>)
    ensures WireFields(SetCookie(SetCookie(Fresh, n1, v1), n2, v2))
      == [Field(SetCookieName, n1 + "=" + v1), Field(SetCookieName, n2 + "=" + v2)]
  {
    assert WireFields(Fresh) == [];
    SetCookieAppends(Fresh, n1, v1, Cookie.Defaults);
    SetCookieAppends(SetCookie(Fresh, n1, v1), n2, v2, Cookie.Defaults);
    EncodePlain(n1, v1);
    EncodePlain(n2, v2);
  }

  lemma SetCookieLine(x: seq<char>)
    ensures FieldLine(Field(SetCookieName, x)) + CRLF == "Set-Cookie: " + x + "\r\n"
  {
    assert "Set-Cookie" + ": " == "Set-Cookie: ";
  }

  lemma SimpleCookiesFields()
    ensures WireFields(SetCookie(SetCookie(Fresh, "First", "One"), "Second", "Two"))
      == [Field("Set-Cookie", "First=One"), Field("Set-Cookie", "Second=Two")]
    ensures FieldLine(Field("Set-Cookie", "First=One")) + CRLF == "Set-Cookie: First=One\r\n"
    ensures FieldLine(Field("Set-Cookie", "Second=Two")) + CRLF == "Set-Cookie: Second=Two\r\n"
  {
    TwoCookies("First", "One", "Second", "Two");
    ExampleTexts.FirstPair();
    ExampleTexts.SecondPair();
    SetCookieLine("First=One");
    SetCookieLine("Second=Two");
    ExampleTexts.CookieLines();
  }

  /** Two cookies, two Set-Cookie fields, in order. */
  lemma SimpleCookies()
    ensures Serialize(SetCookie(SetCookie(Fresh, "First", "One"), "Second", "Two"), Status.NotFound)
      == "HTTP/1.1 404 Not Found\r\n" + ("Set-Cookie: First=One\r\n" + ("Set-Cookie: Second=Two\r\n" + "\r\n"))
  {
    var r := SetCookie(SetCookie(Fresh, "First", "One"), "Second", "Two");
    SimpleCookiesFields();
    NotFoundLine();
    SerializeTwo(r, Status.NotFound, Field("Set-Cookie", "First=One"), Field("Set-Cookie", "Second=Two"),
      "HTTP/1.1 404 Not Found\r\n", "Set-Cookie: First=One\r\n", "Set-Cookie: Second=Two\r\n");
  }

  /** The response to a lone SetCookie on a fresh responder, whatever the cookie encodes to. */
  lemma OneCookie(name: seq<char>, value: seq<char>, o: Cookie.CookieOptions, encoded: seq<char>,
                  status: Status.Status, line: seq<char>)
    requires Cookie.Encode(name, value, o) == encoded
    requires Status.StatusLine(status) == line
    ensures Serialize(SetCookie(Fresh, name, value, o), status) == line + ("Set-Cookie: " + (encoded + ("\r\n" + "\r\n")))
  {
    var r := SetCookie(Fresh, name, value, o);
    var f := Field(SetCookieName, encoded);
    var h := "Set-Cookie: " + encoded + "\r\n";
    assert WireFields(Fresh) == [];
    SetCookieAppends(Fresh, name, value, o);
    SetCookieLine(encoded);
    SerializeOne(r, status, f, line, h);
    Append3("Set-Cookie: " + encoded, "\r\n", "\r\n");
    Append3("Set-Cookie: ", encoded, "\r\n" + "\r\n");
  }

  /** Domain, path and Max-Age, in that order, on one Set-Cookie line. */
  lemma CookieWithSimpleOptions()
    ensures Serialize(SetCookie(Fresh, "First", "One", CookieExamples.SimpleOptions()), Status.Ok)
      == "HTTP/1.1 200 OK\r\n"
       + ("Set-Cookie: " + (("First=One" + ("; Domain=example.com" + ("; Path=/some/path" + "; Max-Age=600")))
       + ("\r\n" + "\r\n")))
  {
    CookieExamples.SimpleOptionsEncode();
    OkLine();
    OneCookie("First", "One", CookieExamples.SimpleOptions(),
      "First=One" + ("; Domain=example.com" + ("; Path=/some/path" + "; Max-Age=600")),
      Status.Ok, "HTTP/1.1 200 OK\r\n");
  }

  /** An expiration time, written as an IMF-fixdate. */
  lemma CookieWithExpirationDate()
    ensures Serialize(SetCookie(Fresh, "First", "One", CookieExamples.ExpiringOptions()), Status.Ok)
      == "HTTP/1.1 200 OK\r\n"
       + ("Set-Cookie: " + (("First=One" + ("; Expires=" + "Tue, 15 Jan 2013 21:47:38 GMT")) + ("\r\n" + "\r\n")))
  {
    CookieExamples.ExpirationEncode();
    OkLine();
    OneCookie("First", "One", CookieExamples.ExpiringOptions(),
      "First=One" + ("; Expires=" + "Tue, 15 Jan 2013 21:47:38 GMT"), Status.Ok, "HTTP/1.1 200 OK\r\n");
  }

  /** The two flags, HttpOnly before Secure. */
  lemma CookieWithHttpOnlyAndSecure()
    ensures Serialize(SetCookie(Fresh, "First", "One", CookieExamples.FlagOptions()), Status.Ok)
      == "HTTP/1.1 200 OK\r\n" + ("Set-Cookie: " + (("First=One" + ("; HttpOnly" + "; Secure")) + ("\r\n" + "\r\n")))
  {
    CookieExamples.FlagsEncode();
    OkLine();
    OneCookie("First", "One", CookieExamples.FlagOptions(), "First=One" + ("; HttpOnly" + "; Secure"),
      Status.Ok, "HTTP/1.1 200 OK\r\n");
  }
}

=== FILE: status.dfy ===
/**
  Response status codes with the reason phrases registered in section 6.1
  of RFC 7231, and the status line of section 3.1.2 of RFC 7230:
  `HTTP-version SP status-code SP reason-phrase CRLF`.
 */
module Status {
  import opened Wrappers
  import Decimal

  datatype Status =
    | Continue
    | SwitchingProtocols
    | Ok
    | Created
    | Accepted
    | NonAuthoritativeInformation
    | NoContent
    | ResetContent
    | PartialContent
    | MultipleChoices
    | MovedPermanently
    | Found
    | SeeOther
    | NotModified
    | UseProxy
    | TemporaryRedirect
    | BadRequest
    | Unauthorized
    | PaymentRequired
    | Forbidden
    | NotFound
    | MethodNotAllowed
    | NotAcceptable
    | ProxyAuthenticationRequired
    | RequestTimeout
    | Conflict
    | Gone
    | LengthRequired
    | PreconditionFailed
    | PayloadTooLarge
    | UriTooLong
    | UnsupportedMediaType
    | RangeNotSatisfiable
    | ExpectationFailed
    | UpgradeRequired
    | InternalServerError
    | NotImplemented
    | BadGateway
    | ServiceUnavailable
    | GatewayTimeout
    | HttpVersionNotSupported

  /** The three-digit status code. */
  function Code(s: Status): (c: nat)
    ensures 100 <= c <= 599
  {
    match s
    case Continue => 100
    case SwitchingProtocols => 101
    case Ok => 200
    case Created => 201
    case Accepted => 202
    case NonAuthoritativeInformation => 203
    case NoContent => 204
    case ResetContent => 205
    case PartialContent => 206
    case MultipleChoices => 300
    case MovedPermanently => 301
    case Found => 302
    case SeeOther => 303
    case NotModified => 304
    case UseProxy => 305
    case TemporaryRedirect => 307
    case BadRequest => 400
    case Unauthorized => 401
    case PaymentRequired => 402
    case Forbidden => 403
    case NotFound => 404
    case MethodNotAllowed => 405
    case NotAcceptable => 406
    case ProxyAuthenticationRequired => 407
    case RequestTimeout => 408
    case Conflict => 409
    case Gone => 410
    case LengthRequired => 411
    case PreconditionFailed => 412
    case PayloadTooLarge => 413
    case UriTooLong => 414
    case UnsupportedMediaType => 415
    case RangeNotSatisfiable => 416
    case ExpectationFailed => 417
    case UpgradeRequired => 426
    case InternalServerError => 500
    case NotImplemented => 501
    case BadGateway => 502
    case ServiceUnavailable => 503
    case GatewayTimeout => 504
    case HttpVersionNotSupported => 505
  }

  /** Characters that occur in registered reason phrases: letters, space and '-'. */
  predicate IsPhraseChar(c: char) {
    c == ' ' || c == '-' || 'A' <= c <= 'Z' || 'a' <= c <= 'z'
  }

  /** Reason phrase text: in particular it never contains CR or LF, so it cannot end the line early. */
  predicate IsPhrase(r: seq<char>) {
    |r| >= 1 && forall i :: 0 <= i < |r| ==> IsPhraseChar(r[i])
  }

  /** The reason phrase sent after the code. */
  function Reason(s: Status): seq<char>
  {
    match s
    case Continue => "Continue"
    case SwitchingProtocols => "Switching Protocols"
    case Ok => "OK"
    case Created => "Created"
    case Accepted => "Accepted"
    case NonAuthoritativeInformation => "Non-Authoritative Information"
    case NoContent => "No Content"
    case ResetContent => "Reset Content"
    case PartialContent => "Partial Content"
    case MultipleChoices => "Multiple Choices"
    case MovedPermanently => "Moved Permanently"
    case Found => "Found"
    case SeeOther => "See Other"
    case NotModified => "Not Modified"
    case UseProxy => "Use Proxy"
    case TemporaryRedirect => "Temporary Redirect"
    case BadRequest => "Bad Request"
    case Unauthorized => "Unauthorized"
    case PaymentRequired => "Payment Required"
    case Forbidden => "Forbidden"
    case NotFound => "Not Found"
    case MethodNotAllowed => "Method Not Allowed"
    case NotAcceptable => "Not Acceptable"
    case ProxyAuthenticationRequired => "Proxy Authentication Required"
    case RequestTimeout => "Request Timeout"
    case Conflict => "Conflict"
    case Gone => "Gone"
    case LengthRequired => "Length Required"
    case PreconditionFailed => "Precondition Failed"
    case PayloadTooLarge => "Payload Too Large"
    case UriTooLong => "URI Too Long"
    case UnsupportedMediaType => "Unsupported Media Type"
    case RangeNotSatisfiable => "Range Not Satisfiable"
    case ExpectationFailed => "Expectation Failed"
    case UpgradeRequired => "Upgrade Required"
    case InternalServerError => "Internal Server Error"
    case NotImplemented => "Not Implemented"
    case BadGateway => "Bad Gateway"
    case ServiceUnavailable => "Service Unavailable"
    case GatewayTimeout => "Gateway Timeout"
    case HttpVersionNotSupported => "HTTP Version Not Supported"
  }

  lemma PhrasesPart0()
    ensures IsPhrase(Reason(Continue))
      && IsPhrase(Reason(SwitchingProtocols))
  {
  }

  lemma PhrasesPart1()
    ensures IsPhrase(Reason(Ok))
      && IsPhrase(Reason(Created))
  {
  }

  lemma PhrasesPart2()
    ensures IsPhrase(Reason(Accepted))
      && IsPhrase(Reason(NonAuthoritativeInformation))
  {
  }

  lemma PhrasesPart3()
    ensures IsPhrase(Reason(NoContent))
      && IsPhrase(Reason(ResetContent))
  {
  }

  lemma PhrasesPart4()
    ensures IsPhrase(Reason(PartialContent))
      && IsPhrase(Reason(MultipleChoices))
  {
  }

  lemma PhrasesPart5()
    ensures IsPhrase(Reason(MovedPermanently))
      && IsPhrase(Reason(Found))
  {
  }

  lemma PhrasesPart6()
    ensures IsPhrase(Reason(SeeOther))
      && IsPhrase(Reason(NotModified))
  {
  }

  lemma PhrasesPart7()
    ensures IsPhrase(Reason(UseProxy))
      && IsPhrase(Reason(TemporaryRedirect))
  {
  }

  lemma PhrasesPart8()
    ensures IsPhrase(Reason(BadRequest))
      && IsPhrase(Reason(Unauthorized))
  {
  }

  lemma PhrasesPart9()
    ensures IsPhrase(Reason(PaymentRequired))
      && IsPhrase(Reason(Forbidden))
  {
  }

  lemma PhrasesPart10()
    ensures IsPhrase(Reason(NotFound))
      && IsPhrase(Reason(MethodNotAllowed))
  {
  }

  lemma PhrasesPart11()
    ensures IsPhrase(Reason(NotAcceptable))
      && IsPhrase(Reason(ProxyAuthenticationRequired))
  {
  }

  lemma PhrasesPart12()
    ensures IsPhrase(Reason(RequestTimeout))
      && IsPhrase(Reason(Conflict))
  {
  }

  lemma PhrasesPart13()
    ensures IsPhrase(Reason(Gone))
      && IsPhrase(Reason(LengthRequired))
  {
  }

  lemma PhrasesPart14()
    ensures IsPhrase(Reason(PreconditionFailed))
      && IsPhrase(Reason(PayloadTooLarge))
  {
  }

  lemma PhrasesPart15()
    ensures IsPhrase(Reason(UriTooLong))
      && IsPhrase(Reason(UnsupportedMediaType))
  {
  }

  lemma PhrasesPart16()
    ensures IsPhrase(Reason(RangeNotSatisfiable))
      && IsPhrase(Reason(ExpectationFailed))
  {
  }

  lemma PhrasesPart17()
    ensures IsPhrase(Reason(UpgradeRequired))
      && IsPhrase(Reason(InternalServerError))
  {
  }

  lemma PhrasesPart18()
    ensures IsPhrase(Reason(NotImplemented))
      && IsPhrase(Reason(BadGateway))
  {
  }

  lemma PhrasesPart19()
    ensures IsPhrase(Reason(ServiceUnavailable))
      && IsPhrase(Reason(GatewayTimeout))
  {
  }

  lemma PhrasesPart20()
    ensures IsPhrase(Reason(HttpVersionNotSupported))
  {
  }

  lemma ReasonIsPhrase(s: Status)
    ensures IsPhrase(Reason(s))
  {
    PhrasesPart0();
    PhrasesPart1();
    PhrasesPart2();
    PhrasesPart3();
    PhrasesPart4();
    PhrasesPart5();
    PhrasesPart6();
    PhrasesPart7();
    PhrasesPart8();
    PhrasesPart9();
    PhrasesPart10();
    PhrasesPart11();
    PhrasesPart12();
    PhrasesPart13();
    PhrasesPart14();
    PhrasesPart15();
    PhrasesPart16();
    PhrasesPart17();
    PhrasesPart18();
    PhrasesPart19();
    PhrasesPart20();
  }

  /** The status a code stands for, if it is a registered one. */
  function FromCode(c: int): Option<Status> {
    match c
    case 100 => Some(Continue)
    case 101 => Some(SwitchingProtocols)
    case 200 => Some(Ok)
    case 201 => Some(Created)
    case 202 => Some(Accepted)
    case 203 => Some(NonAuthoritativeInformation)
    case 204 => Some(NoContent)
    case 205 => Some(ResetContent)
    case 206 => Some(PartialContent)
    case 300 => Some(MultipleChoices)
    case 301 => Some(MovedPermanently)
    case 302 => Some(Found)
    case 303 => Some(SeeOther)
    case 304 => Some(NotModified)
    case 305 => Some(UseProxy)
    case 307 => Some(TemporaryRedirect)
    case 400 => Some(BadRequest)
    case 401 => Some(Unauthorized)
    case 402 => Some(PaymentRequired)
    case 403 => Some(Forbidden)
    case 404 => Some(NotFound)
    case 405 => Some(MethodNotAllowed)
    case 406 => Some(NotAcceptable)
    case 407 => Some(ProxyAuthenticationRequired)
    case 408 => Some(RequestTimeout)
    case 409 => Some(Conflict)
    case 410 => Some(Gone)
    case 411 => Some(LengthRequired)
    case 412 => Some(PreconditionFailed)
    case 413 => Some(PayloadTooLarge)
    case 414 => Some(UriTooLong)
    case 415 => Some(UnsupportedMediaType)
    case 416 => Some(RangeNotSatisfiable)
    case 417 => Some(ExpectationFailed)
    case 426 => Some(UpgradeRequired)
    case 500 => Some(InternalServerError)
    case 501 => Some(NotImplemented)
    case 502 => Some(BadGateway)
    case 503 => Some(ServiceUnavailable)
    case 504 => Some(GatewayTimeout)
    case 505 => Some(HttpVersionNotSupported)
    case _ => None
  }

  /** Codes identify statuses: the code of a status maps back to it. */
  lemma FromCodeOfCode(s: Status)
    ensures FromCode(Code(s)) == Some(s)
  {
    if Code(s) < 400 {
      FromCodeBelow400(s);
    } else {
      FromCodeFrom400(s);
    }
  }

  lemma FromCodeBelow400(s: Status)
    requires Code(s) < 400
    ensures FromCode(Code(s)) == Some(s)
  {
  }

  lemma FromCodeFrom400(s: Status)
    requires Code(s) >= 400
    ensures FromCode(Code(s)) == Some(s)
  {
  }

  /** ... and a registered code is the code of the status it maps to. */
  lemma CodeOfFromCode(c: int)
    requires FromCode(c).Some?
    ensures Code(FromCode(c).value) == c
  {
  }

  /** No two statuses share a code. */
  lemma CodeInjective(s: Status, t: Status)
    requires Code(s) == Code(t)
    ensures s == t
  {
    FromCodeOfCode(s);
    FromCodeOfCode(t);
  }

  const Version: seq<char> := "HTTP/1.1"

  /** `HTTP/1.1 <code> <reason>` for any code and phrase. */
  function Layout(code: nat, reason: seq<char>): seq<char> {
    Version + " " + (Decimal.FromNat(code) + (" " + reason))
  }

  /** The fixed positions of a layout whose code has three digits. */
  lemma LayoutShape(code: nat, reason: seq<char>)
    requires 100 <= code <= 999
    ensures |Layout(code, reason)| == 13 + |reason|
    ensures Layout(code, reason)[..9] == Version + " "
    ensures Layout(code, reason)[9..12] == Decimal.FromNat(code)
    ensures Layout(code, reason)[12..] == " " + reason
  {
    Decimal.DigitCount(code, 3);
  }

  /** `HTTP/1.1 <code> <reason>`: a single line, with a three-digit code. */
  function StatusText(s: Status): (text: seq<char>)
    ensures |text| == 13 + |Reason(s)|
    ensures '\r' !in text && '\n' !in text
  {
    LayoutShape(Code(s), Reason(s));
    ReasonIsPhrase(s);
    Decimal.DigitCount(Code(s), 3);
    Layout(Code(s), Reason(s))
  }

  /** The status line: its text and CRLF. */
  function StatusLine(s: Status): seq<char> {
    StatusText(s) + "\r\n"
  }

  /**
    Reads a status text (the line without its CRLF) back: the version, a
    registered three-digit code, and exactly the reason phrase of that code.
   */
  function ParseStatusText(text: seq<char>): (r: Option<Status>)
    ensures r.Some? ==> StatusText(r.value) == text
  {
    if |text| < 13 || text[..9] != Version + " " then None
    else
      match Decimal.ParseNat(text[9..12])
      case None => None
      case Some(code) =>
        match FromCode(code)
        case None => None
        case Some(s) => if text == StatusText(s) then Some(s) else None
  }

  /** The status text round trip. */
  lemma ParseStatusTextOf(s: Status)
    ensures ParseStatusText(StatusText(s)) == Some(s)
  {
    var code := Code(s);
    FromCodeOfCode(s);
    StatusTextIsLayout(s);
    LayoutCode(code, Reason(s));
    ParseStatusTextWhen(StatusText(s), code, s);
  }

  lemma ParseStatusTextWhen(text: seq<char>, code: nat, s: Status)
    requires |text| >= 13 && text[..9] == Version + " "
    requires Decimal.ParseNat(text[9..12]) == Some(code)
    requires FromCode(code) == Some(s)
    requires text == StatusText(s)
    ensures ParseStatusText(text) == Some(s)
  {
  }

  lemma StatusTextIsLayout(s: Status)
    ensures StatusText(s) == Layout(Code(s), Reason(s))
  {
  }

  lemma StatusLineIsLayout(s: Status)
    ensures StatusLine(s) == Layout(Code(s), Reason(s)) + "\r\n"
  {
  }

  lemma LayoutCode(code: nat, reason: seq<char>)
    requires 100 <= code <= 999
    ensures |Layout(code, reason)| >= 13
    ensures Layout(code, reason)[..9] == Version + " "
    ensures Decimal.ParseNat(Layout(code, reason)[9..12]) == Some(code)
  {
    LayoutShape(code, reason);
    Decimal.ParseFromNat(code);
  }
}

=== FILE: text.dfy ===
/**
  Splitting text at a separator character and reading CRLF-terminated
  lines: the two ways a reader takes apart what the responder writes.
 */
module Text {
  import opened Wrappers

  /** Index of the first `c` in `s`, or `|s|` when there is none. */
  function Find(s: seq<char>, c: char): (i: nat)
    ensures i <= |s|
    ensures i < |s| ==> s[i] == c
    ensures c !in s[..i]
  {
    if |s| == 0 then 0
    else if s[0] == c then 0
    else
      var j := Find(s[1..], c);
      assert s[..j + 1] == [s[0]] + s[1..][..j];
      j + 1
  }

  /** The parts joined with `sep` between neighbours. */
  function Join(parts: seq<seq<char>>, sep: char): seq<char>
    requires |parts| >= 1
  {
    if |parts| == 1 then parts[0] else parts[0] + [sep] + Join(parts[1..], sep)
  }

  /** The maximal runs of `s` between occurrences of `sep`; never empty. */
  function Split(s: seq<char>, sep: char): (parts: seq<seq<char>>)
    ensures |parts| >= 1
    ensures forall k :: 0 <= k < |parts| ==> sep !in parts[k]
    decreases |s|
  {
    var i := Find(s, sep);
    if i == |s| then
      assert s[..i] == s;
      [s]
    else
      [s[..i]] + Split(s[i + 1..], sep)
  }

  /** Splitting undoes joining, when no part contains the separator. */
  lemma {:induction false} SplitJoin(parts: seq<seq<char>>, sep: char)
    requires |parts| >= 1
    requires forall k :: 0 <= k < |parts| ==> sep !in parts[k]
    ensures Split(Join(parts, sep), sep) == parts
    decreases |parts|
  {
    var s := Join(parts, sep);
    if |parts| == 1 {
      FindAbsent(s, sep);
    } else {
      var rest := Join(parts[1..], sep);
      assert s == parts[0] + [sep] + rest;
      FindFirst(parts[0], sep, rest);
      assert s[..|parts[0]|] == parts[0];
      assert s[|parts[0]| + 1..] == rest;
      SplitJoin(parts[1..], sep);
      assert parts == [parts[0]] + parts[1..];
    }
  }

  /** Joining undoes splitting, for every text. */
  lemma {:induction false} JoinSplit(s: seq<char>, sep: char)
    ensures Join(Split(s, sep), sep) == s
    decreases |s|
  {
    var i := Find(s, sep);
    if i < |s| {
      var rest := Split(s[i + 1..], sep);
      assert Split(s, sep) == [s[..i]] + rest;
      JoinCons(s[..i], rest, sep);
      JoinSplit(s[i + 1..], sep);
      assert s == s[..i] + [sep] + s[i + 1..];
    } else {
      assert s[..i] == s;
    }
  }

  /** Joining a leading part onto the rest puts one separator between them. */
  lemma JoinCons(first: seq<char>, rest: seq<seq<char>>, sep: char)
    requires |rest| >= 1
    ensures Join([first] + rest, sep) == first + [sep] + Join(rest, sep)
  {
    assert ([first] + rest)[1..] == rest;
  }

  lemma FindAbsent(s: seq<char>, c: char)
    requires c !in s
    ensures Find(s, c) == |s|
  {
  }

  lemma FindFirst(a: seq<char>, c: char, rest: seq<char>)
    requires c !in a
    ensures Find(a + [c] + rest, c) == |a|
  {
    var s := a + [c] + rest;
    assert s[|a|] == c;
    assert s[..|a|] == a;
  }

  const CRLF: seq<char> := "\r\n"

  /** Each line followed by CRLF, in order. */
  function Terminated(lines: seq<seq<char>>): seq<char> {
    if |lines| == 0 then [] else lines[0] + CRLF + Terminated(lines[1..])
  }

  /** Reads one line up to its CRLF, giving the line and what follows; fails without a CRLF. */
  function ReadLine(s: seq<char>): (r: Option<(seq<char>, seq<char>)>)
    ensures r.Some? ==> s == r.value.0 + CRLF + r.value.1 && '\r' !in r.value.0
  {
    var i := Find(s, '\r');
    if i + 1 < |s| && s[i + 1] == '\n' then
      assert s == s[..i] + CRLF + s[i + 2..];
      Some((s[..i], s[i + 2..]))
    else None
  }

  lemma ReadLineOf(line: seq<char>, rest: seq<char>)
    requires '\r' !in line
    ensures ReadLine(line + CRLF + rest) == Some((line, rest))
  {
    var s := line + CRLF + rest;
    assert s == line + ['\r'] + (['\n'] + rest);
    FindFirst(line, '\r', ['\n'] + rest);
    assert s[..|line|] == line;
  }

  /**
    Reads lines up to and including the first empty one: the lines before
    it and what follows it.
   */
  function ReadBlock(s: seq<char>): (r: Option<(seq<seq<char>>, seq<char>)>)
    ensures r.Some? ==> s == Terminated(r.value.0) + CRLF + r.value.1
    ensures r.Some? ==> forall k :: 0 <= k < |r.value.0| ==> |r.value.0[k]| >= 1 && '\r' !in r.value.0[k]
    decreases |s|
  {
    match ReadLine(s)
    case None => None
    case Some((line, rest)) =>
      if line == [] then Some(([], rest))
      else
        match ReadBlock(rest)
        case None => None
        case Some((lines, tail)) => Some(([line] + lines, tail))
  }

  /** A block of non-empty lines without CR, closed by an empty line, reads back exactly. */
  lemma {:induction false} ReadBlockOf(lines: seq<seq<char>>, tail: seq<char>)
    requires forall k :: 0 <= k < |lines| ==> |lines[k]| >= 1 && '\r' !in lines[k]
    ensures ReadBlock(Terminated(lines) + CRLF + tail) == Some((lines, tail))
    decreases |lines|
  {
    if |lines| == 0 {
      assert Terminated(lines) + CRLF + tail == [] + CRLF + tail;
      ReadLineOf([], tail);
    } else {
      var rest := Terminated(lines[1..]) + CRLF + tail;
      assert Terminated(lines) + CRLF + tail == lines[0] + CRLF + rest;
      ReadLineOf(lines[0], rest);
      ReadBlockOf(lines[1..], tail);
      assert [lines[0]] + lines[1..] == lines;
    }
  }

  /** Joining never introduces a character that is neither in a part nor the separator. */
  lemma {:induction false} JoinAvoids(parts: seq<seq<char>>, sep: char, c: char)
    requires |parts| >= 1 && c != sep
    requires forall k :: 0 <= k < |parts| ==> c !in parts[k]
    ensures c !in Join(parts, sep)
    decreases |parts|
  {
    if |parts| > 1 {
      JoinAvoids(parts[1..], sep, c);
    }
  }

  /** Terminating one more line appends it and its CRLF. */
  lemma {:induction false} TerminatedSnoc(lines: seq<seq<char>>, line: seq<char>)
    ensures Terminated(lines + [line]) == Terminated(lines) + line + CRLF
    decreases |lines|
  {
    if |lines| == 0 {
      assert lines + [line] == [line];
    } else {
      assert (lines + [line])[1..] == lines[1..] + [line];
      TerminatedSnoc(lines[1..], line);
    }
  }
}

=== FILE: wrappers.dfy ===
/** The optional-value datatype shared by the modules of this model. */
module Wrappers {

  /** A value that may be absent, as a `std::optional` or an unset option is. */
  datatype Option<+T> = None | Some(value: T) {

    /**
      The parsers of this model chain optional results with `:-`: an absent
      result stops the chain and becomes the absent result of the caller.
     */
    predicate IsFailure() {
      None?
    }

    function PropagateFailure<U>(): Option<U>
      requires None?
    {
      None
    }

    function Extract(): T
      requires Some?
    {
      value
    }

    /** The value, or `default` when there is none (a missing body reads as empty). */
    function GetOr(default: T): T {
      match this
      case Some(v) => v
      case None => default
    }
  }
}
